=== FILE: README.md ===
# Checklist grouping and search, modelled in Dafny

This project models the core of an Obsidian plugin that collects checklist
items ("todos") from the notes of a vault and shows them as a tree of groups.
The model covers four parts:

- **The grouping engine `groupTodos`** (`groups.dfy`, properties in
  `group_properties.dfy`).
  - It derives a key for each item, by page, heading, folder, frontmatter
    property, main tag, or the composite tag of the 'none' mode. A parent id
    prefixes each key as `parent::key`.
  - It buckets the items into groups in first-encounter order. Each group
    keeps a running minimum and maximum of its items' creation times.
  - It drops empty groups and sorts the rest.
  - It then either sorts each group's items or builds one level of subgroups
    by calling itself again.
  - The engine is an imperative method, `Groups.GroupTodos`. It is proved
    equal to the declarative description `Groups.GroupTodosSpec`, and the
    properties are proved about that description.
- **The search filter and group names** (`search.dfy`).
  - `getGroupName` gives a group's display name.
  - `filterGroups` is a recursive, case-insensitive filter over the tree.
- **The tag settings** (`tags.dfy`).
  - `todoTagArray` and `visibleTodoTagArray` read the tags from the settings.
  - The view decides which tags it hands to the parser.
- **The view's item cache** (`file_cache.dfy`, `view.dfy`).
  - The class `View.TodoListView` keeps a map from file path to that file's
    items, together with the insertion order of the paths, because a
    JavaScript `Map` iterates its keys in insertion order.
  - Its methods model `calculateAllItems`, `groupItems`, `deleteFile`,
    `refresh` and the search handler.

`types.dfy` holds the data model: items, the group kinds, the grouping modes
and the sort directions. `text.dfy` holds the JavaScript string and array
operations the code relies on: `split`, `join`, `trim`, `toLowerCase`,
`includes` and `filter`.

Three helpers are defined outside these files and appear here as
function-valued parameters: the sort `sortGenericItemsInplace`,
`classifyString`, and the parser `parseTodos`. The lemmas about grouping
assume only that both sorts return a reordering of their input
(`Groups.Permutes`).

Three behaviours of the code are worth knowing when reading the model:

- **Property keys.** An item goes to "No Property" when the property name is
  missing or empty, or when the item's value for it is absent or falsy
  (`src/utils/groups.ts:25`).
- **Subgrouping by property.** The recursive call for subgroups passes no
  property name (`src/utils/groups.ts:108`). So subgrouping by property
  always yields the single subgroup "No Property"
  (`GroupProperties.PropertySubgroups`).
- **The 'none' mode.** Grouping by 'none' still creates groups. Their type is
  'none' and their `sortName` and `className` are empty.

## Model

| member | source | states |
|---|---|---|
| Types.TypeOf | src/_types.ts:20-56 | A group's `type` is 'none' exactly when it has none of the five variant payloads |
| Text.Split | src/utils/groups.ts:22 | `split` on one character yields at least one piece, and no piece contains the separator |
| Text.JoinSplit | src/utils/groups.ts:22-23 | Joining the pieces of a split with the same separator restores the string |
| Text.FilterMembers | src/utils/groups.ts:82 | `filter` keeps exactly the elements that satisfy the predicate |
| Text.FilterSubseq | src/view.ts:46-48 | `filter` keeps its elements in their original order |
| Groups.SubArgs | src/utils/groups.ts:102-111 | The recursive call's subgrouping level is lower than the caller's, so the recursion ends |
| Groups.BaseKey | src/utils/groups.ts:17-31 | The page key is the file path; the heading key is the heading or "No Heading"; the property key is the value's text when the property name and value are truthy, else "No Property"; the tag key is `#main` or "#No Tag"; the 'none' key is `#` followed by the present main and sub tags joined by `/` (`#main/sub`, `#main`, `#sub` or `#`) |
| Groups.PrefixKey | src/utils/groups.ts:33-35 | A truthy parent id is followed by `::` and then the key itself; otherwise the key is unchanged |
| Groups.NewGroup | src/utils/groups.ts:38-73 | A new group has the key as id, no items, no subgroups, `type` equal to the grouping mode and `newestItem` 0; `oldestItem` starts at the first item's time. Per mode: a page group carries the first item's file label as page name and sort name; a tag group carries its main and sub tags and sorts by the key; a heading group carries the heading or "No Heading"; folder and property groups carry the key; each `className` is the classifier applied to the sort name; 'none' groups have empty names |
| Groups.Build | src/utils/groups.ts:37-79 | The group of a key has that key as id and holds exactly the items with that key, in input order |
| Groups.Buckets | src/utils/groups.ts:14-80 | There is one group per distinct key |
| Groups.KeysMembership | src/utils/groups.ts:16-73 | A key gets a group exactly when some item has that key |
| Groups.KeysDistinct | src/utils/groups.ts:37-73 | No two groups share a key, because `find` reuses the existing group |
| Groups.BucketsStepExisting | src/utils/groups.ts:37-79 | An item whose key has a group raises that group's newest time, lowers its oldest time and appends the item; the other groups are unchanged |
| Groups.BucketsStepNew | src/utils/groups.ts:38-79 | An item with a new key appends a new group holding only that item |
| Groups.FindGroup | src/utils/groups.ts:37 | `find` returns the first group with the id, or reports that there is none |
| Groups.PlaceItem | src/utils/groups.ts:37-79 | The loop body updates the found group in place, or appends a new group holding the item |
| Groups.BucketItems | src/utils/groups.ts:14-80 | The bucketing loop computes exactly the declarative buckets: one group per key in first-encounter order, each holding its items |
| Groups.GroupTodos | src/utils/groups.ts:4-116 | `groupTodos` returns what the declarative description `GroupTodosSpec` gives: non-empty buckets, group-sorted, then item-sorted or subgrouped |
| GroupProperties.BucketsPartition | src/utils/groups.ts:15-80 | The buckets together hold every input item exactly once |
| GroupProperties.BucketsNonEmpty | src/utils/groups.ts:71-82 | Every bucket has an item, so dropping empty groups removes nothing |
| GroupProperties.SortedIsPermutation | src/utils/groups.ts:82-89 | The sorted groups are a reordering of the buckets |
| GroupProperties.ResultGroup | src/utils/groups.ts:37-113 | Each returned group has a key as id and holds exactly that key's items. Its `newestItem` and `oldestItem` are the max and min over them. Its payload and `type` come from the first such item, and its names follow its kind. Either its items are sorted and `groups` is unset, or its items are kept and `groups` is the recursive grouping of them |
| GroupProperties.Partition | src/utils/groups.ts:15-115 | Across the returned groups' `todos`, every input item appears exactly once (as multisets) |
| GroupProperties.SubgroupsPartition | src/utils/groups.ts:100-113 | A subgrouped group keeps all its items, and its subgroups partition them |
| GroupProperties.NoEmptyGroups | src/utils/groups.ts:37-82 | Every returned group has at least one item |
| GroupProperties.Placement | src/utils/groups.ts:16-79 | Each item is in the group whose id is its key, and a group holds only input items whose key is its id |
| GroupProperties.Timestamps | src/utils/groups.ts:45-77 | `newestItem` is the largest of 0 and the item times; `oldestItem` is the smallest item time |
| GroupProperties.NewestIsMax | src/utils/groups.ts:74-75 | The running maximum from 0 is the largest of 0 and the item times |
| GroupProperties.OldestIsMin | src/utils/groups.ts:76-77 | The running minimum of a non-empty item list is its smallest item time |
| GroupProperties.DistinctIds | src/utils/groups.ts:37-89 | The ids of the returned groups are pairwise distinct |
| GroupProperties.IdsDistinctPermutation | src/utils/groups.ts:84-89 | Reordering groups with distinct ids keeps the ids distinct |
| GroupProperties.FlatTodosPermutation | src/utils/groups.ts:84-89 | Reordering groups does not change which items they hold |
| GroupProperties.DepthBound | src/utils/groups.ts:91-113 | The tree is at most two levels deep, and one level deep without subgrouping |
| GroupProperties.SubgroupIds | src/utils/groups.ts:33-35 | Each subgroup's id is `parent::key` for the subgroup key of one of the parent's items |
| GroupProperties.SubgroupIdPrefix | src/utils/groups.ts:102-111 | When the parent's id is not empty, every subgroup id starts with the parent's id followed by `::` |
| GroupProperties.PropertySubgroups | src/utils/groups.ts:102-111 | Subgrouping by property yields exactly one subgroup per group, "No Property" with the parent prefix, holding all the group's items |
| GroupProperties.FolderKeyIsDirectory | src/utils/groups.ts:21-23 | The folder key is the path up to its last `/`, or `/` for a path without one |
| Search.GroupName | src/view.ts:204-216 | A page group is named by its page name, or "" without one; heading, folder and property groups by their payload; a tag group is named "No Tag" exactly when its main tag is falsy, `#main` without a truthy sub tag and `#main/sub` with one; 'none' groups are named "" |
| Search.FilterGroups | src/view.ts:165-202 | The filter never yields more groups than it is given |
| Search.FilterGroup | src/view.ts:168-201 | A group is kept at most once; a kept copy differs from the group only in its items and subgroups |
| Search.FilterEmptyTerm | src/view.ts:165-202 | An empty term returns the groups unchanged |
| Search.NameMatchKept | src/view.ts:169-178 | A group whose name contains the term (ignoring case) is in the result unchanged |
| Search.FilterGroupKeptIff | src/view.ts:180-199 | A group survives exactly when its name, one of its items' texts, or something in its subtree matches |
| Search.FilterGroupsKeptIff | src/view.ts:168-201 | The result is non-empty exactly when some input group has a match in its subtree |
| Search.FilterGroupsJustified | src/view.ts:181-198 | Each kept group either has a matching name, or holds only matching items and keeps an item or a justified subgroup |
| Search.FilterGroupsPruned | src/view.ts:168-201 | The result is the input with groups, items and subgroups dropped, in the input order at every level |
| Search.FilterGroupPruned | src/view.ts:181-198 | A kept copy's items are a subsequence of the group's items, and its subgroups are a pruning of the group's subgroups |
| Search.FilterGroupItems | src/view.ts:181-198 | Each item of a kept copy is one of the group's items, and its text matches unless the group's name does |
| Search.SubgroupMatchesKept | src/view.ts:180-198 | When a group's name does not match, every matching item of any of its subgroups is in a subgroup of the kept copy |
| Search.MatchingItemKept | src/view.ts:169-198 | Every item of a group whose text matches is in the group's kept copy |
| Search.FilterGroupsItems | src/view.ts:165-202 | Each item of the result comes from an input group, and its text matches unless that group's name does |
| Search.MatchingItemsKept | src/view.ts:165-202 | Every input item whose text matches is in some group of the result |
| Tags.TodoTags | src/view.ts:36-43 | No configured tag is empty or spans a line break |
| Tags.TodoTagsMembers | src/view.ts:36-43 | The tags are exactly the non-empty lines of the trimmed setting, lowercased, and each is already in lower case |
| Tags.LowerIdempotent | src/view.ts:41 | Lowercasing a second time changes nothing |
| Tags.VisibleTags | src/view.ts:45-49 | There are no more visible tags than tags |
| Tags.VisibleTagsMembers | src/view.ts:45-49 | The visible tags are the tags not hidden, in setting order |
| Tags.ParserTags | src/view.ts:127 | A tag goes to the parser exactly when it is configured and not hidden, or is `*` and no tag is configured; the parser gets no tag at all exactly when tags are configured and all are hidden |
| Tags.StarSettingIsUnset | src/view.ts:127 | Unless `*` is hidden, a setting naming only the tag `*` yields the same parser tags as an empty setting, so the two cannot be told apart |
| FileCache.Empty | src/view.ts:81 | A cleared map is empty and its order is in step with its keys |
| FileCache.SetAllLookup | src/view.ts:135-137 | After the `set` loop, each parsed path holds its last parsed list, and every other path is unchanged |
| FileCache.SetAllOrdered | src/view.ts:135-137 | The `set` loop keeps the key order listing each key exactly once |
| FileCache.ConcatMembers | src/view.ts:141 | The flattened values hold exactly the items of the keys listed |
| FileCache.ValuesMembers | src/view.ts:141 | The flattened values hold exactly the items of the entries |
| FileCache.DeleteSpec | src/view.ts:93-94 | `delete` removes exactly that key and exactly its items from the flattened values; the other entries stay |
| View.RequestFor | src/view.ts:124-134 | The parser is asked for exactly the configured tags that are not hidden, or for `*` when none is configured, with the settings' file filters and the files changed since the given time |
| View.TodoListView.constructor | src/view.ts:12-15 | A new view has render time 0, no groups, an empty cache and an empty search term |
| View.TodoListView.CalculateAllItems | src/view.ts:124-138 | The cache becomes the old cache with each parsed file's entry replaced, in the parser's order |
| View.TodoListView.GroupItems | src/view.ts:140-163 | The displayed groups are the grouping of the cached items (only the active file's when set), searched only when the term is not empty |
| View.TodoListView.DeleteFile | src/view.ts:93-97 | The file's entry is removed and the groups are recomputed |
| View.TodoListView.Refresh | src/view.ts:78-87 | A full refresh first empties the cache and resets the render time to 0; then the cache is updated, regrouped, and the render time becomes `now` |
| View.TodoListView.OnSearch | src/view.ts:116-119 | The search term is stored and the view refreshes incrementally with it |
| View.EmptyTermSkipSound | src/view.ts:157-160 | Skipping the filter for an empty term is the same as filtering with it |
| View.ItemsToGroupMembers | src/view.ts:141-144 | The grouped items are the cached items, restricted to the active file when only it is shown |
| View.DisplayedItems | src/view.ts:140-162 | Without a term the displayed groups hold each cached item exactly once; with one, every kept group is justified by a match |
| View.ActiveFileOnly | src/view.ts:142-160 | With only the active file shown, every displayed item belongs to that file, whatever the search term |
| View.MatchesDisplayed | src/view.ts:140-162 | Every item to group whose text matches the search term is displayed |

## Left out

- **Extraction.** `parseTodos` is not part of this model. It is a parameter that maps a request (tags, include glob, flags, last render time) to the changed files and their items. The vault, the metadata cache and the file list stay inside it.
- **Foreign helpers.** `sortGenericItemsInplace` and `classifyString` are parameters. The model assumes only that the sort reorders its input; the comparison keys and tie-breaking are not modelled.
- **Rendering and lifecycle.** Rendering (`renderView`, `rerender`, `props`, the Svelte app) and the view lifecycle (`onOpen`, `onClose`, event registration, `getViewType`, `getDisplayText`, `getIcon`) are out of scope: they only pass data to the user interface or to Obsidian.
- **Settings.** `src/settings.ts` is not part of this model; the view's settings are a record parameter.
- **Concurrency and time.**
  - The `await`s are dropped: the model is single-threaded.
  - `+new Date()` is the parameter `now`.
  - `getActiveFile()` becomes an optional path. When only the active file is shown, a precondition requires that it exists, as the code assumes.
- **Numbers.** Creation times are integers, not floating-point numbers. The `Infinity` that `oldestItem` starts from is never visible, because every group receives its first item at once; the model starts from that item's time.
- **Item metadata.** Of an item's `fileInfo`, only the parsed frontmatter is modelled. Each frontmatter value is reduced to its `String(...)` text and its JavaScript truthiness.
- **Case folding.** `toLowerCase` is modelled on ASCII letters only.
- **Aliasing.** The groups are shared objects between `groups` and `nonEmptyGroups`, and the loop mutates them in place. The model works on values and writes each updated group back at its position. The 'none' branch loops over `groups` rather than the sorted `nonEmptyGroups`; since no group is empty, this sorts the items of the same groups, which the model does after the group sort.
- **Rescan equivalence.** The claim that an incremental refresh gives the same cache as a full rescan depends on the parser and is not modelled.
- **Sort order.** `Groups.GroupTodos` states the group order only as the output of the foreign sort, called with `newestItem` for 'new->old' and `oldestItem` otherwise. The order itself is the sort's business.
- Groups.BaseKey: the folder key is stated separately, by `GroupProperties.FolderKeyIsDirectory`.

=== FILE: file_cache.dfy ===
/** The per-file item cache of the view (src/view.ts): a JavaScript `Map`
    from file path to that file's items. A `Map` iterates its keys in the
    order they were first set, so the cache is a Dafny map together with
    that order. */
module FileCache {
  import opened Types
  import opened Text

  datatype FileMap = FileMap(entries: map<string, seq<Item>>, order: seq<string>)

  predicate Distinct<T(==)>(s: seq<T>)
  {
    forall i, j :: 0 <= i < j < |s| ==> s[i] != s[j]
  }

  /** The order lists every key once and nothing else. */
  ghost predicate Ordered(c: FileMap)
  {
    && (forall p :: p in c.entries <==> p in c.order)
    && Distinct(c.order)
  }

  /** `new Map()` and `clear()`. */
  function Empty(): (c: FileMap)
    ensures Ordered(c) && c.entries == map[]
  {
    FileMap(map[], [])
  }

  /** `set(path, items)`: replaces the entry, keeping the key's place, or
      adds it last. */
  function Set(c: FileMap, path: string, items: seq<Item>): FileMap
  {
    FileMap(c.entries[path := items], if path in c.order then c.order else c.order + [path])
  }

  /** `delete(path)`. */
  function Delete(c: FileMap, path: string): FileMap
  {
    FileMap(c.entries - {path}, Filter(c.order, (q: string) => q != path))
  }

  /** One `set` per pair, in order. */
  function SetAll(c: FileMap, updates: seq<(string, seq<Item>)>): FileMap
  {
    if updates == [] then c
    else
      var last := updates[|updates| - 1];
      Set(SetAll(c, updates[..|updates| - 1]), last.0, last.1)
  }

  /** One more pair of the run is one more `set`. */
  lemma SetAllStep(c: FileMap, updates: seq<(string, seq<Item>)>, i: nat)
    requires i < |updates|
    ensures SetAll(c, updates[..i + 1]) == Set(SetAll(c, updates[..i]), updates[i].0, updates[i].1)
  {
    assert updates[..i + 1][..i] == updates[..i];
  }

  /** The item lists of the keys in `order`, concatenated. */
  function Concat(order: seq<string>, m: map<string, seq<Item>>): seq<Item>
  {
    if order == [] then []
    else (if order[0] in m then m[order[0]] else []) + Concat(order[1..], m)
  }

  /** `Array.from(values()).flat()`: every file's items, file after file in
      key order. */
  function Values(c: FileMap): seq<Item>
  {
    Concat(c.order, c.entries)
  }

  // ---------------------------------------------------------------------
  // Properties

  /** After a run of `set`s every entry holds the last list set for its
      path, and the entries of paths not set are as before. */
  lemma {:induction false} SetAllLookup(c: FileMap, updates: seq<(string, seq<Item>)>, path: string)
    ensures (exists i :: 0 <= i < |updates| && updates[i].0 == path) ==>
      exists i :: && 0 <= i < |updates| && updates[i].0 == path
                  && path in SetAll(c, updates).entries && SetAll(c, updates).entries[path] == updates[i].1
                  && forall j :: i < j < |updates| ==> updates[j].0 != path
    ensures (forall i :: 0 <= i < |updates| ==> updates[i].0 != path) ==>
      && (path in SetAll(c, updates).entries <==> path in c.entries)
      && (path in c.entries ==> SetAll(c, updates).entries[path] == c.entries[path])
  {
    if updates != [] {
      var init, last := updates[..|updates| - 1], updates[|updates| - 1];
      SetAllLookup(c, init, path);
      if last.0 != path {
        if exists i :: 0 <= i < |updates| && updates[i].0 == path {
          var i :| 0 <= i < |updates| && updates[i].0 == path;
          assert init[i].0 == path;
          var k :| && 0 <= k < |init| && init[k].0 == path
                   && path in SetAll(c, init).entries && SetAll(c, init).entries[path] == init[k].1
                   && forall j :: k < j < |init| ==> init[j].0 != path;
          assert updates[k] == init[k];
        }
        if forall i :: 0 <= i < |updates| ==> updates[i].0 != path {
          assert forall i :: 0 <= i < |init| ==> init[i].0 != path by {
            forall i | 0 <= i < |init| ensures init[i].0 != path {
              assert init[i] == updates[i];
            }
          }
        }
      }
    }
  }

  /** A run of `set`s keeps the order in step with the keys. */
  lemma {:induction false} SetAllOrdered(c: FileMap, updates: seq<(string, seq<Item>)>)
    requires Ordered(c)
    ensures Ordered(SetAll(c, updates))
  {
    if updates != [] {
      SetAllOrdered(c, updates[..|updates| - 1]);
    }
  }

  /** An item is in the flattened values exactly when one of the listed
      keys holds it. */
  lemma {:induction false} ConcatMembers(order: seq<string>, m: map<string, seq<Item>>, x: Item)
    ensures x in Concat(order, m) <==> exists i :: 0 <= i < |order| && order[i] in m && x in m[order[i]]
  {
    if order != [] {
      ConcatMembers(order[1..], m, x);
      if exists i :: 0 <= i < |order| && order[i] in m && x in m[order[i]] {
        var i :| 0 <= i < |order| && order[i] in m && x in m[order[i]];
        if i > 0 {
          assert order[1..][i - 1] == order[i];
        }
      }
      if exists i :: 0 <= i < |order[1..]| && order[1..][i] in m && x in m[order[1..][i]] {
        var i :| 0 <= i < |order[1..]| && order[1..][i] in m && x in m[order[1..][i]];
        assert order[i + 1] == order[1..][i];
      }
    }
  }

  /** The flattened values hold exactly the items of the entries. */
  lemma ValuesMembers(c: FileMap, x: Item)
    requires Ordered(c)
    ensures x in Values(c) <==> exists p :: p in c.entries && x in c.entries[p]
  {
    ConcatMembers(c.order, c.entries, x);
    if exists p :: p in c.entries && x in c.entries[p] {
      var p :| p in c.entries && x in c.entries[p];
      assert p in c.order;
      var i :| 0 <= i < |c.order| && c.order[i] == p;
    }
  }

  /** Keys outside the order do not affect the flattened values. */
  lemma {:induction false} ConcatIgnores(order: seq<string>, m: map<string, seq<Item>>, p: string)
    requires p !in order
    ensures Concat(order, m - {p}) == Concat(order, m)
  {
    if order != [] {
      assert p !in order[1..] by {
        forall q | q in order[1..] ensures q != p {
          var k :| 0 <= k < |order[1..]| && order[1..][k] == q;
          assert order[k + 1] == q;
        }
      }
      ConcatIgnores(order[1..], m, p);
    }
  }

  /** Deleting a key drops exactly its items from the flattened values. */
  lemma {:induction false} ConcatDelete(order: seq<string>, m: map<string, seq<Item>>, p: string)
    requires Distinct(order)
    ensures multiset(Concat(Filter(order, (q: string) => q != p), m - {p}))
          + (if p in order && p in m then multiset(m[p]) else multiset{})
         == multiset(Concat(order, m))
  {
    if order != [] {
      var rest := order[1..];
      DistinctTail(order);
      if order[0] == p {
        ConcatDeleteHead(order, m);
      } else {
        ConcatDelete(rest, m, p);
        ConcatDeleteOther(order, m, p);
      }
    }
  }

  /** Deleting a key other than the first keeps the first entry's items in
      front. */
  lemma ConcatDeleteOther(order: seq<string>, m: map<string, seq<Item>>, p: string)
    requires order != [] && order[0] != p
    requires var rest := order[1..];
      multiset(Concat(Filter(rest, (q: string) => q != p), m - {p}))
      + (if p in rest && p in m then multiset(m[p]) else multiset{})
      == multiset(Concat(rest, m))
    ensures multiset(Concat(Filter(order, (q: string) => q != p), m - {p}))
          + (if p in order && p in m then multiset(m[p]) else multiset{})
         == multiset(Concat(order, m))
  {
    var rest := order[1..];
    var q0 := order[0];
    var head := if q0 in m then m[q0] else [];
    var kept := Filter(rest, (q: string) => q != p);
    var after := Concat(kept, m - {p});
    var extra := if p in rest && p in m then multiset(m[p]) else multiset{};
    assert Concat(Filter(order, (q: string) => q != p), m - {p}) == head + after by {
      assert order == [q0] + rest;
      assert Filter(order, (q: string) => q != p) == [q0] + kept;
      assert ([q0] + kept)[1..] == kept;
    }
    assert Concat(order, m) == head + Concat(rest, m);
    assert (if p in order && p in m then multiset(m[p]) else multiset{}) == extra by {
      assert p in order <==> p in rest;
    }
    assert multiset(head + after) + extra == multiset(head) + (multiset(after) + extra);
  }

  lemma DistinctTail(order: seq<string>)
    requires order != [] && Distinct(order)
    ensures Distinct(order[1..]) && order[0] !in order[1..]
  {
    var rest := order[1..];
    forall i, j | 0 <= i < j < |rest| ensures rest[i] != rest[j] {
      assert rest[i] == order[i + 1] && rest[j] == order[j + 1];
    }
    forall q | q in rest ensures q != order[0] {
      var k :| 0 <= k < |rest| && rest[k] == q;
      assert order[k + 1] == q;
    }
  }

  /** Deleting the first key drops its items and keeps the rest. */
  lemma ConcatDeleteHead(order: seq<string>, m: map<string, seq<Item>>)
    requires order != [] && Distinct(order)
    ensures var p := order[0];
      Concat(Filter(order, (q: string) => q != p), m - {p}) == Concat(order[1..], m)
  {
    var p := order[0];
    var rest := order[1..];
    DistinctTail(order);
    assert Filter(order, (q: string) => q != p) == Filter(rest, (q: string) => q != p);
    FilterAll(rest, (q: string) => q != p);
    ConcatIgnores(rest, m, p);
  }

  /** `delete` removes exactly the one entry and its items, and keeps the
      order in step with the keys. */
  lemma DeleteSpec(c: FileMap, path: string)
    requires Ordered(c)
    ensures Delete(c, path).entries == c.entries - {path}
    ensures Ordered(Delete(c, path))
    ensures multiset(Values(Delete(c, path))) + (if path in c.entries then multiset(c.entries[path]) else multiset{})
         == multiset(Values(c))
  {
    var p := (q: string) => q != path;
    var order := Filter(c.order, p);
    forall q
      ensures q in Delete(c, path).entries <==> q in order
    {
      FilterMembers(c.order, p, q);
    }
    FilterSubseq(c.order, p);
    SubseqDistinct(order, c.order);
    ConcatDelete(c.order, c.entries, path);
  }

  /** A subsequence of a sequence without repeats has none. */
  lemma {:induction false} SubseqDistinct<T>(a: seq<T>, b: seq<T>)
    requires IsSubseq(a, b) && Distinct(b)
    ensures Distinct(a)
  {
    if a != [] && b != [] {
      assert Distinct(b[1..]) by {
        forall i, j | 0 <= i < j < |b[1..]| ensures b[1..][i] != b[1..][j] {
          assert b[1..][i] == b[i + 1] && b[1..][j] == b[j + 1];
        }
      }
      if a[0] == b[0] && IsSubseq(a[1..], b[1..]) {
        SubseqDistinct(a[1..], b[1..]);
        SubseqMembers(a[1..], b[1..]);
        forall i, j | 0 <= i < j < |a| ensures a[i] != a[j] {
          if i == 0 {
            assert a[j] == a[1..][j - 1];
            assert a[j] in b[1..];
            var k :| 0 <= k < |b[1..]| && b[1..][k] == a[j];
            assert b[k + 1] == a[j];
          } else {
            assert a[i] == a[1..][i - 1] && a[j] == a[1..][j - 1];
          }
        }
      } else {
        SubseqDistinct(a, b[1..]);
      }
    }
  }

  /** The elements of a subsequence are elements of the sequence. */
  lemma {:induction false} SubseqMembers<T>(a: seq<T>, b: seq<T>)
    requires IsSubseq(a, b)
    ensures forall x :: x in a ==> x in b
  {
    if a != [] && b != [] {
      if a[0] == b[0] && IsSubseq(a[1..], b[1..]) {
        SubseqMembers(a[1..], b[1..]);
        assert forall x :: x in a ==> x == a[0] || x in a[1..];
      } else {
        SubseqMembers(a, b[1..]);
      }
      assert forall x :: x in b[1..] ==> x in b;
    }
  }
}

=== FILE: group_properties.dfy ===
/** What `groupTodos` guarantees (src/utils/groups.ts), proved about its
    declarative description `Groups.GroupTodosSpec`, which the method
    `Groups.GroupTodos` is proved to compute. The foreign sort is assumed
    only to reorder its input (`Groups.Permutes`). */
module GroupProperties {
  import opened Types
  import opened Text
  import opened Groups

  // ---------------------------------------------------------------------
  // Flattening

  /** The items of a list of groups, group after group. */
  function FlatTodos(gs: seq<Group>): seq<Item>
  {
    if gs == [] then [] else gs[0].todos + FlatTodos(gs[1..])
  }

  lemma {:induction false} FlatTodosConcat(gs: seq<Group>, hs: seq<Group>)
    ensures FlatTodos(gs + hs) == FlatTodos(gs) + FlatTodos(hs)
  {
    if gs != [] {
      assert (gs + hs)[0] == gs[0] && (gs + hs)[1..] == gs[1..] + hs;
      FlatTodosConcat(gs[1..], hs);
      calc {
        FlatTodos(gs + hs);
        gs[0].todos + FlatTodos(gs[1..] + hs);
        gs[0].todos + (FlatTodos(gs[1..]) + FlatTodos(hs));
        (gs[0].todos + FlatTodos(gs[1..])) + FlatTodos(hs);
      }
    } else {
      assert gs + hs == hs;
    }
  }

  /** An item of the flattened list sits in one of the groups. */
  lemma {:induction false} FlatTodosMember(gs: seq<Group>, x: Item)
    requires x in FlatTodos(gs)
    ensures exists i :: 0 <= i < |gs| && x in gs[i].todos
  {
    if x !in gs[0].todos {
      FlatTodosMember(gs[1..], x);
      var i :| 0 <= i < |gs[1..]| && x in gs[1..][i].todos;
      assert x in gs[i + 1].todos;
    }
  }

  /** Changing one group's items changes the flattened multiset by exactly
      that difference. */
  lemma FlatTodosUpdate(gs: seq<Group>, j: nat, g: Group)
    requires j < |gs|
    ensures multiset(FlatTodos(gs[j := g])) + multiset(gs[j].todos)
         == multiset(FlatTodos(gs)) + multiset(g.todos)
  {
    var hs := gs[j := g];
    assert hs[..j] == gs[..j] && hs[j + 1..] == gs[j + 1..];
    FlatTodosAt(gs, j);
    FlatTodosAt(hs, j);
  }

  /** Adding an item to one group adds it to the flattened items. */
  lemma FlatTodosAddItem(gs: seq<Group>, j: nat, x: Item)
    requires j < |gs|
    ensures multiset(FlatTodos(gs[j := AddItem(gs[j], x)])) == multiset(FlatTodos(gs)) + multiset{x}
  {
    var g := AddItem(gs[j], x);
    FlatTodosUpdate(gs, j, g);
    var after, before, t := multiset(FlatTodos(gs[j := g])), multiset(FlatTodos(gs)), multiset(gs[j].todos);
    assert multiset(g.todos) == t + multiset{x};
    assert after + t == (before + multiset{x}) + t;
    assert after == (after + t) - t;
  }

  /** Reordering the groups does not change which items they hold. */
  lemma {:induction false} FlatTodosPermutation(gs: seq<Group>, hs: seq<Group>)
    requires multiset(gs) == multiset(hs)
    ensures multiset(FlatTodos(gs)) == multiset(FlatTodos(hs))
    decreases |gs|
  {
    if gs == [] {
      assert |hs| == |multiset(hs)| == 0;
    } else {
      assert gs[0] in multiset(hs);
      var i :| 0 <= i < |hs| && hs[i] == gs[0];
      var rest := hs[..i] + hs[i + 1..];
      RemoveAt(hs, i);
      assert gs == [gs[0]] + gs[1..];
      assert multiset(gs[1..]) == multiset(gs) - multiset{gs[0]};
      FlatTodosPermutation(gs[1..], rest);
      FlatTodosRemove(hs, i);
    }
  }

  /** Taking one group out of a list takes one copy of it out of the
      multiset. */
  lemma RemoveAt(hs: seq<Group>, i: nat)
    requires i < |hs|
    ensures multiset(hs[..i] + hs[i + 1..]) == multiset(hs) - multiset{hs[i]}
  {
    assert hs == hs[..i] + [hs[i]] + hs[i + 1..];
    assert multiset(hs) == multiset(hs[..i]) + multiset{hs[i]} + multiset(hs[i + 1..]);
  }

  /** The flattened items are one group's items plus those of the others. */
  lemma FlatTodosRemove(hs: seq<Group>, i: nat)
    requires i < |hs|
    ensures multiset(FlatTodos(hs)) == multiset(hs[i].todos) + multiset(FlatTodos(hs[..i] + hs[i + 1..]))
  {
    var pre, post := hs[..i], hs[i + 1..];
    var f, t, b := FlatTodos(pre), hs[i].todos, FlatTodos(post);
    FlatTodosAt(hs, i);
    FlatTodosConcat(pre, post);
    assert multiset((f + t) + b) == multiset(t) + multiset(f + b);
  }

  /** The flattened items are those before a group, its own and those
      after it. */
  lemma {:induction false} FlatTodosAt(hs: seq<Group>, i: nat)
    requires i < |hs|
    ensures FlatTodos(hs) == (FlatTodos(hs[..i]) + hs[i].todos) + FlatTodos(hs[i + 1..])
  {
    if i == 0 {
      assert hs[..0] == [];
    } else {
      var tail := hs[1..];
      FlatTodosAt(tail, i - 1);
      assert tail[..i - 1] == hs[..i][1..] && hs[..i][0] == hs[0];
      assert tail[i - 1] == hs[i] && tail[i..] == hs[i + 1..];
      var f, t, b := FlatTodos(tail[..i - 1]), hs[i].todos, FlatTodos(hs[i + 1..]);
      assert FlatTodos(hs[..i]) == hs[0].todos + f;
      assert FlatTodos(hs) == hs[0].todos + ((f + t) + b);
      assert hs[0].todos + ((f + t) + b) == ((hs[0].todos + f) + t) + b;
    }
  }

  /** Replacing each group's items by a reordering of them does not change
      which items the groups hold. */
  lemma {:induction false} FlatTodosPointwise(gs: seq<Group>, hs: seq<Group>)
    requires |gs| == |hs|
    requires forall i :: 0 <= i < |gs| ==> multiset(gs[i].todos) == multiset(hs[i].todos)
    ensures multiset(FlatTodos(gs)) == multiset(FlatTodos(hs))
  {
    if gs != [] {
      FlatTodosPointwise(gs[1..], hs[1..]);
    }
  }

  // ---------------------------------------------------------------------
  // The buckets

  /** The buckets together hold every input item exactly once. */
  lemma {:induction false} BucketsPartition(items: seq<Item>, a: GroupArgs, c: string -> string)
    ensures multiset(FlatTodos(Buckets(items, a, c))) == multiset(items)
  {
    if items != [] {
      var s, x := items[..|items| - 1], items[|items| - 1];
      assert items == s + [x];
      BucketsPartition(s, a, c);
      BucketsPartitionStep(s, x, a, c);
    }
  }

  /** One more input item adds exactly that item to the buckets. */
  lemma BucketsPartitionStep(s: seq<Item>, x: Item, a: GroupArgs, c: string -> string)
    ensures multiset(FlatTodos(Buckets(s + [x], a, c))) == multiset(FlatTodos(Buckets(s, a, c))) + multiset{x}
  {
    var k := ItemKey(x, a);
    BucketsAt(s, a, c);
    if k in Keys(s, a) {
      var j :| 0 <= j < |Keys(s, a)| && Keys(s, a)[j] == k;
      PartitionStepExisting(s, x, a, c, j);
    } else {
      PartitionStepNew(s, x, a, c);
    }
  }

  lemma PartitionStepExisting(s: seq<Item>, x: Item, a: GroupArgs, c: string -> string, j: nat)
    requires j < |Buckets(s, a, c)| && Buckets(s, a, c)[j].id == ItemKey(x, a)
    ensures multiset(FlatTodos(Buckets(s + [x], a, c))) == multiset(FlatTodos(Buckets(s, a, c))) + multiset{x}
  {
    BucketsStepExisting(s, x, a, c, j);
    FlatTodosAddItem(Buckets(s, a, c), j, x);
  }

  lemma PartitionStepNew(s: seq<Item>, x: Item, a: GroupArgs, c: string -> string)
    requires forall j :: 0 <= j < |Buckets(s, a, c)| ==> Buckets(s, a, c)[j].id != ItemKey(x, a)
    ensures multiset(FlatTodos(Buckets(s + [x], a, c))) == multiset(FlatTodos(Buckets(s, a, c))) + multiset{x}
  {
    var gs := Buckets(s, a, c);
    BucketsStepNew(s, x, a, c);
    var g := AddItem(NewGroup(x, ItemKey(x, a), a.groupBy, c), x);
    FlatTodosConcat(gs, [g]);
    assert FlatTodos([g]) == [x];
  }

  /** Every bucket is the group `Build` makes for its key, and has items. */
  lemma BucketsNonEmpty(items: seq<Item>, a: GroupArgs, c: string -> string)
    ensures forall g :: g in Buckets(items, a, c) ==> HasTodos(g)
    ensures Filter(Buckets(items, a, c), HasTodos) == Buckets(items, a, c)
  {
    BucketsAt(items, a, c);
    FilterAll(Buckets(items, a, c), HasTodos);
  }

  // ---------------------------------------------------------------------
  // Timestamps

  /** `newestItem` is the largest of 0 and the items' timestamps. */
  lemma {:induction false} NewestIsMax(ms: seq<Item>)
    ensures Newest(ms) >= 0
    ensures forall x :: x in ms ==> x.fileCreatedTs <= Newest(ms)
    ensures Newest(ms) == 0 || exists x :: x in ms && x.fileCreatedTs == Newest(ms)
  {
    if ms != [] {
      var init := ms[..|ms| - 1];
      NewestIsMax(init);
      assert ms == init + [ms[|ms| - 1]];
      if Newest(init) != 0 && Newest(ms) == Newest(init) {
        var x :| x in init && x.fileCreatedTs == Newest(init);
        assert x in ms;
      }
    }
  }

  /** `oldestItem` is the smallest of the items' timestamps. */
  lemma {:induction false} OldestIsMin(ms: seq<Item>)
    requires ms != []
    ensures forall x :: x in ms ==> Oldest(ms) <= x.fileCreatedTs
    ensures exists x :: x in ms && x.fileCreatedTs == Oldest(ms)
  {
    if |ms| > 1 {
      var init := ms[..|ms| - 1];
      OldestIsMin(init);
      assert ms == init + [ms[|ms| - 1]];
      var x :| x in init && x.fileCreatedTs == Oldest(init);
      assert x in ms;
    } else {
      assert ms[0] in ms;
    }
  }

  // ---------------------------------------------------------------------
  // The groups of the result

  /** The display fields every created group carries, by kind: the payload
      and `sortName` agree with the id or with each other, and `className`
      classifies `sortName`. Groups of the 'none' mode carry neither. */
  predicate WellNamed(g: Group, classify: string -> string)
  {
    match g.kind
    case PageGroup(name) => name == Some(g.sortName) && g.className == classify(g.sortName)
    case TagGroup(_, _) => g.sortName == g.id && g.className == classify(g.id)
    case HeadingGroup(heading) => heading == g.sortName && g.className == classify(g.sortName)
    case FolderGroup(folder) => folder == g.id && g.sortName == g.id && g.className == classify(g.id)
    case PropertyGroup(value) => value == g.id && g.sortName == g.id && g.className == classify(g.id)
    case Untyped => g.sortName == "" && g.className == ""
  }

  /** The groups in the order the group sort gives them, before their items
      are sorted or their subgroups built. */
  function SortedBuckets(items: seq<Item>, a: GroupArgs, h: Host): seq<Group>
  {
    h.sortGroups(Filter(Buckets(items, a, h.classify), HasTodos), a.sortGroups, TimeFieldFor(a.sortGroups))
  }

  /** The sorted groups are a reordering of the buckets. */
  lemma SortedIsPermutation(items: seq<Item>, a: GroupArgs, h: Host)
    requires Permutes(h)
    ensures multiset(SortedBuckets(items, a, h)) == multiset(Buckets(items, a, h.classify))
  {
    BucketsNonEmpty(items, a, h.classify);
  }

  /** Each sorted group is the bucket of one of the keys. */
  lemma SortedGroup(items: seq<Item>, a: GroupArgs, h: Host, i: nat)
    requires Permutes(h)
    requires i < |SortedBuckets(items, a, h)|
    ensures SortedBuckets(items, a, h)[i].id in Keys(items, a)
    ensures Members(items, a, SortedBuckets(items, a, h)[i].id) != []
    ensures SortedBuckets(items, a, h)[i] == Build(items, a, h.classify, SortedBuckets(items, a, h)[i].id)
  {
    var bs := Buckets(items, a, h.classify);
    var sorted := SortedBuckets(items, a, h);
    SortedIsPermutation(items, a, h);
    assert sorted[i] in multiset(bs);
    var p :| 0 <= p < |bs| && bs[p] == sorted[i];
    BucketsAt(items, a, h.classify);
  }

  /** What the group `Build` makes for a key is like: created from the
      first member, holding all members, with their timestamp range. */
  lemma BuildFacts(items: seq<Item>, a: GroupArgs, c: string -> string, k: string)
    requires Members(items, a, k) != []
    ensures var g := Build(items, a, c, k);
      var first := NewGroup(Members(items, a, k)[0], k, a.groupBy, c);
      && g.kind == first.kind && g.sortName == first.sortName && g.className == first.className
      && TypeOf(g.kind) == a.groupBy
      && WellNamed(g, c)
      && g.groups == Unset
      && g.newestItem == Newest(Members(items, a, k))
      && g.oldestItem == Oldest(Members(items, a, k))
  {
  }

  /** Everything `groupTodos` promises about one group of its result. */
  lemma ResultGroup(items: seq<Item>, a: GroupArgs, h: Host, i: nat)
    requires Permutes(h)
    requires i < |GroupTodosSpec(items, a, h)|
    ensures var g := GroupTodosSpec(items, a, h)[i];
      var ms := Members(items, a, g.id);
      && g.id in Keys(items, a)
      && ms != []
      && multiset(g.todos) == multiset(ms)
      && |g.todos| > 0
      && g.newestItem == Newest(ms)
      && g.oldestItem == Oldest(ms)
      && g.kind == NewGroup(ms[0], g.id, a.groupBy, h.classify).kind
      && TypeOf(g.kind) == a.groupBy
      && WellNamed(g, h.classify)
      && (NoSubgrouping(a.subGroupBy) ==> g.todos == h.sortItems(ms, a.sortItems) && g.groups == Unset)
      && (!NoSubgrouping(a.subGroupBy) ==>
            g.todos == ms && g.groups == Subgroups(GroupTodosSpec(ms, SubArgs(a, g.id), h)))
  {
    var sorted := SortedBuckets(items, a, h);
    SortedGroup(items, a, h, i);
    BuildFacts(items, a, h.classify, sorted[i].id);
    assert GroupTodosSpec(items, a, h)[i] == FinishGroup(sorted[i], a, h);
  }

  // ---------------------------------------------------------------------
  // Properties of the whole result

  /** The groups partition the input: every item is in exactly one group's
      `todos`, and nothing else is. */
  lemma Partition(items: seq<Item>, a: GroupArgs, h: Host)
    requires Permutes(h)
    ensures multiset(FlatTodos(GroupTodosSpec(items, a, h))) == multiset(items)
  {
    var bs := Buckets(items, a, h.classify);
    var sorted := SortedBuckets(items, a, h);
    var r := GroupTodosSpec(items, a, h);
    BucketsPartition(items, a, h.classify);
    SortedIsPermutation(items, a, h);
    FlatTodosPermutation(bs, sorted);
    forall i | 0 <= i < |r|
      ensures multiset(sorted[i].todos) == multiset(r[i].todos)
    {
      assert r[i] == FinishGroup(sorted[i], a, h);
    }
    FlatTodosPointwise(sorted, r);
  }

  /** A group keeps all its items when its subgroups are built, and the
      subgroups partition them. */
  lemma SubgroupsPartition(items: seq<Item>, a: GroupArgs, h: Host, i: nat)
    requires Permutes(h)
    requires i < |GroupTodosSpec(items, a, h)|
    requires !NoSubgrouping(a.subGroupBy)
    ensures var g := GroupTodosSpec(items, a, h)[i];
      g.groups.Subgroups? && multiset(FlatTodos(g.groups.list)) == multiset(g.todos)
  {
    var g := GroupTodosSpec(items, a, h)[i];
    ResultGroup(items, a, h, i);
    Partition(g.todos, SubArgs(a, g.id), h);
  }

  /** No group of the result is empty. */
  lemma NoEmptyGroups(items: seq<Item>, a: GroupArgs, h: Host)
    requires Permutes(h)
    ensures forall g :: g in GroupTodosSpec(items, a, h) ==> |g.todos| > 0
  {
    var r := GroupTodosSpec(items, a, h);
    forall g | g in r
      ensures |g.todos| > 0
    {
      var i :| 0 <= i < |r| && r[i] == g;
      ResultGroup(items, a, h, i);
    }
  }

  /** Each item is in the group whose id is its key, and a group holds only
      items with its id as key. */
  lemma Placement(items: seq<Item>, a: GroupArgs, h: Host)
    requires Permutes(h)
    ensures forall i, x ::
      0 <= i < |GroupTodosSpec(items, a, h)| && x in GroupTodosSpec(items, a, h)[i].todos
      ==> x in items && ItemKey(x, a) == GroupTodosSpec(items, a, h)[i].id
    ensures forall x :: x in items ==>
      exists i :: 0 <= i < |GroupTodosSpec(items, a, h)|
        && GroupTodosSpec(items, a, h)[i].id == ItemKey(x, a) && x in GroupTodosSpec(items, a, h)[i].todos
  {
    var r := GroupTodosSpec(items, a, h);
    forall i, x | 0 <= i < |r| && x in r[i].todos
      ensures x in items && ItemKey(x, a) == r[i].id
    {
      GroupMember(items, a, h, i, x);
    }
    forall x | x in items
      ensures exists i :: 0 <= i < |r| && r[i].id == ItemKey(x, a) && x in r[i].todos
    {
      Partition(items, a, h);
      assert x in multiset(FlatTodos(r));
      FlatTodosMember(r, x);
      var i :| 0 <= i < |r| && x in r[i].todos;
      GroupMember(items, a, h, i, x);
    }
  }

  lemma GroupMember(items: seq<Item>, a: GroupArgs, h: Host, i: nat, x: Item)
    requires Permutes(h)
    requires i < |GroupTodosSpec(items, a, h)| && x in GroupTodosSpec(items, a, h)[i].todos
    ensures x in items && ItemKey(x, a) == GroupTodosSpec(items, a, h)[i].id
  {
    var g := GroupTodosSpec(items, a, h)[i];
    ResultGroup(items, a, h, i);
    assert x in multiset(Members(items, a, g.id));
    FilterMembers(items, (y: Item) => ItemKey(y, a) == g.id, x);
  }

  /** The timestamps of a group of the result bound its items' creation
      times, and are attained by one of them (or are 0 for `newestItem`). */
  lemma Timestamps(items: seq<Item>, a: GroupArgs, h: Host, i: nat)
    requires Permutes(h)
    requires i < |GroupTodosSpec(items, a, h)|
    ensures var g := GroupTodosSpec(items, a, h)[i];
      && 0 <= g.newestItem
      && (forall x :: x in g.todos ==> g.oldestItem <= x.fileCreatedTs <= g.newestItem)
      && (exists x :: x in g.todos && x.fileCreatedTs == g.oldestItem)
      && (g.newestItem == 0 || exists x :: x in g.todos && x.fileCreatedTs == g.newestItem)
  {
    var g := GroupTodosSpec(items, a, h)[i];
    ResultGroup(items, a, h, i);
    var ms := Members(items, a, g.id);
    NewestIsMax(ms);
    OldestIsMin(ms);
    assert forall x :: x in g.todos <==> x in ms by {
      forall x ensures x in g.todos <==> x in ms {
        assert x in g.todos <==> x in multiset(g.todos);
      }
    }
  }

  // ---------------------------------------------------------------------
  // Distinct ids

  predicate IdsDistinct(gs: seq<Group>)
  {
    forall i, j :: 0 <= i < j < |gs| ==> gs[i].id != gs[j].id
  }

  /** An element of a sequence without repeats occurs at most once. */
  lemma {:induction false} CountAtMostOne<T>(s: seq<T>, x: T)
    requires forall i, j :: 0 <= i < j < |s| ==> s[i] != s[j]
    ensures multiset(s)[x] <= 1
  {
    if s != [] {
      assert s == [s[0]] + s[1..];
      CountAtMostOne(s[1..], x);
      if x == s[0] {
        assert x !in s[1..] by {
          forall j | 0 <= j < |s[1..]| ensures s[1..][j] != x {
            assert s[1..][j] == s[j + 1];
          }
        }
      }
    }
  }

  /** An element at two positions occurs at least twice. */
  lemma CountAtLeastTwo<T>(s: seq<T>, i: nat, j: nat)
    requires i < j < |s| && s[i] == s[j]
    ensures multiset(s)[s[i]] >= 2
  {
    assert s == s[..j] + [s[j]] + s[j + 1..];
    assert s[..j][i] == s[i];
    assert multiset(s[..j])[s[i]] >= 1;
  }

  /** Reordering groups whose ids are distinct keeps the ids distinct. */
  lemma IdsDistinctPermutation(gs: seq<Group>, hs: seq<Group>)
    requires multiset(gs) == multiset(hs) && IdsDistinct(gs)
    ensures IdsDistinct(hs)
  {
    forall i, j | 0 <= i < j < |hs|
      ensures hs[i].id != hs[j].id
    {
      assert hs[i] in multiset(gs) && hs[j] in multiset(gs);
      var p :| 0 <= p < |gs| && gs[p] == hs[i];
      var q :| 0 <= q < |gs| && gs[q] == hs[j];
      if hs[i].id == hs[j].id {
        assert p == q;
        CountAtLeastTwo(hs, i, j);
        CountAtMostOne(gs, hs[i]);
      }
    }
  }

  /** The ids of the groups of the result are pairwise distinct. */
  lemma DistinctIds(items: seq<Item>, a: GroupArgs, h: Host)
    requires Permutes(h)
    ensures IdsDistinct(GroupTodosSpec(items, a, h))
  {
    var bs := Buckets(items, a, h.classify);
    var sorted := SortedBuckets(items, a, h);
    BucketsAt(items, a, h.classify);
    KeysDistinct(items, a);
    assert IdsDistinct(bs);
    SortedIsPermutation(items, a, h);
    IdsDistinctPermutation(bs, sorted);
    var r := GroupTodosSpec(items, a, h);
    forall i | 0 <= i < |r|
      ensures r[i].id == sorted[i].id
    {
      assert r[i] == FinishGroup(sorted[i], a, h);
    }
  }

  // ---------------------------------------------------------------------
  // Nesting

  /** The number of levels of a group list: 0 when empty. */
  function Depth(gs: seq<Group>): nat
    decreases gs
  {
    if gs == [] then 0
    else
      var d, rest := GroupDepth(gs[0]), Depth(gs[1..]);
      if d < rest then rest else d
  }

  function GroupDepth(g: Group): nat
    decreases g
  {
    1 + match g.groups
        case Unset => 0
        case Subgroups(list) => Depth(list)
  }

  lemma {:induction false} DepthAtMost(gs: seq<Group>, n: nat)
    requires forall i :: 0 <= i < |gs| ==> GroupDepth(gs[i]) <= n
    ensures Depth(gs) <= n
  {
    if gs != [] {
      DepthAtMost(gs[1..], n);
    }
  }

  /** Subgrouping recurses once with subgrouping switched off, so the tree
      has at most two levels, and one without subgrouping. */
  lemma {:induction false} DepthBound(items: seq<Item>, a: GroupArgs, h: Host)
    requires Permutes(h)
    ensures Depth(GroupTodosSpec(items, a, h)) <= 1 + SubLevel(a.subGroupBy) <= 2
    decreases SubLevel(a.subGroupBy)
  {
    var r := GroupTodosSpec(items, a, h);
    forall i | 0 <= i < |r|
      ensures GroupDepth(r[i]) <= 1 + SubLevel(a.subGroupBy)
    {
      ResultGroup(items, a, h, i);
      if !NoSubgrouping(a.subGroupBy) {
        DepthBound(r[i].todos, SubArgs(a, r[i].id), h);
      }
    }
    DepthAtMost(r, 1 + SubLevel(a.subGroupBy));
  }

  // ---------------------------------------------------------------------
  // Subgroups

  /** The id of every subgroup is the parent's id, `::` and the subgroup's
      own key for one of the parent's items. */
  lemma SubgroupIds(items: seq<Item>, a: GroupArgs, h: Host, i: nat)
    requires Permutes(h)
    requires i < |GroupTodosSpec(items, a, h)|
    requires !NoSubgrouping(a.subGroupBy)
    ensures var g := GroupTodosSpec(items, a, h)[i];
      && g.groups.Subgroups?
      && forall j :: 0 <= j < |g.groups.list| ==>
           exists x :: x in g.todos
             && g.groups.list[j].id == PrefixKey(Some(g.id), BaseKey(x, a.subGroupBy.value, None))
  {
    var g := GroupTodosSpec(items, a, h)[i];
    ResultGroup(items, a, h, i);
    var sa := SubArgs(a, g.id);
    var sub := g.groups.list;
    forall j | 0 <= j < |sub|
      ensures exists x :: x in g.todos && sub[j].id == PrefixKey(Some(g.id), BaseKey(x, a.subGroupBy.value, None))
    {
      ResultGroup(g.todos, sa, h, j);
      KeysMembership(g.todos, sa, sub[j].id);
    }
  }

  /** A subgroup's id starts with its parent's id and `::` whenever the
      parent's id is not empty. */
  lemma SubgroupIdPrefix(items: seq<Item>, a: GroupArgs, h: Host, i: nat)
    requires Permutes(h)
    requires i < |GroupTodosSpec(items, a, h)|
    requires !NoSubgrouping(a.subGroupBy)
    ensures var g := GroupTodosSpec(items, a, h)[i];
      && g.groups.Subgroups?
      && (g.id != "" ==> forall j :: 0 <= j < |g.groups.list| ==> g.id + "::" <= g.groups.list[j].id)
  {
    SubgroupIds(items, a, h, i);
    var g := GroupTodosSpec(items, a, h)[i];
    if g.id != "" {
      forall j | 0 <= j < |g.groups.list|
        ensures g.id + "::" <= g.groups.list[j].id
      {
        assert exists x :: (x in g.todos
          && g.groups.list[j].id == PrefixKey(Some(g.id), BaseKey(x, a.subGroupBy.value, None)));
        var x :| x in g.todos
          && g.groups.list[j].id == PrefixKey(Some(g.id), BaseKey(x, a.subGroupBy.value, None));
        var key := BaseKey(x, a.subGroupBy.value, None);
        assert g.groups.list[j].id == (g.id + "::") + key;
      }
    }
  }

  /** When every item has the same key, there is one key. */
  lemma {:induction false} KeysSingle(items: seq<Item>, a: GroupArgs, k: string)
    requires items != []
    requires forall x :: x in items ==> ItemKey(x, a) == k
    ensures Keys(items, a) == [k]
  {
    var init := items[..|items| - 1];
    assert items[|items| - 1] in items;
    if init != [] {
      forall x | x in init ensures ItemKey(x, a) == k {
        assert x in items;
      }
      KeysSingle(init, a, k);
    }
  }

  /** Subgrouping by property passes no property name, so every group gets
      the single subgroup "No Property", which holds all its items. */
  lemma PropertySubgroups(items: seq<Item>, a: GroupArgs, h: Host, i: nat)
    requires Permutes(h)
    requires i < |GroupTodosSpec(items, a, h)|
    requires a.subGroupBy == Some(Property)
    ensures var g := GroupTodosSpec(items, a, h)[i];
      && g.groups.Subgroups?
      && |g.groups.list| == 1
      && g.groups.list[0].id == PrefixKey(Some(g.id), "No Property")
      && g.groups.list[0].kind == PropertyGroup(g.groups.list[0].id)
      && multiset(g.groups.list[0].todos) == multiset(g.todos)
  {
    var g := GroupTodosSpec(items, a, h)[i];
    ResultGroup(items, a, h, i);
    var sa := SubArgs(a, g.id);
    var k := PrefixKey(Some(g.id), "No Property");
    assert forall x :: x in g.todos ==> ItemKey(x, sa) == k;
    SingleKeyResult(g.todos, sa, h, k);
    ResultGroup(g.todos, sa, h, 0);
  }

  /** Items that all share one key form one group holding all of them. */
  lemma SingleKeyResult(items: seq<Item>, a: GroupArgs, h: Host, k: string)
    requires Permutes(h)
    requires items != []
    requires forall x :: x in items ==> ItemKey(x, a) == k
    ensures |GroupTodosSpec(items, a, h)| == 1
    ensures GroupTodosSpec(items, a, h)[0].id == k
    ensures multiset(GroupTodosSpec(items, a, h)[0].todos) == multiset(items)
  {
    KeysSingle(items, a, k);
    SortedIsPermutation(items, a, h);
    var bs := Buckets(items, a, h.classify);
    var sorted := SortedBuckets(items, a, h);
    assert |bs| == 1;
    assert |sorted| == |multiset(sorted)| == |multiset(bs)| == |bs|;
    assert |GroupTodosSpec(items, a, h)| == |sorted|;
    ResultGroup(items, a, h, 0);
    FilterAll(items, (x: Item) => ItemKey(x, a) == k);
  }

  // ---------------------------------------------------------------------
  // Keys

  /** The folder key is the path up to its last `/`, or `/` when the path
      has none: "work/a.md" gives "work" and "root.md" gives "/". */
  lemma FolderKeyIsDirectory(path: string)
    ensures '/' !in path ==> FolderKey(path) == "/"
    ensures '/' in path ==> FolderKey(path) == path[..LastIndexOf(path, '/')]
  {
    if '/' !in path {
      SplitWithoutSeparator(path, '/');
    } else {
      var i := LastIndexOf(path, '/');
      assert path == path[..i] + ['/'] + path[i + 1..];
      FolderKeyOfSplit(path[..i], path[i + 1..]);
    }
  }

  /** A path made of a directory, `/` and a file name without `/` has the
      directory as folder key. */
  lemma FolderKeyOfSplit(dir: string, file: string)
    requires '/' !in file
    ensures FolderKey(dir + ['/'] + file) == dir
  {
    SplitBeforeTail(dir, '/', file);
    var parts := Split(dir, '/') + [file];
    assert |parts| > 1;
    assert parts[..|parts| - 1] == Split(dir, '/');
    JoinSplit(dir, '/');
  }
}

=== FILE: groups.dfy ===
/** The grouping engine (src/utils/groups.ts): turns a flat list of items into
    groups keyed by page, heading, folder, property or tag, with one optional
    level of subgroups. */
module Groups {
  import opened Types
  import opened Text

  /** The timestamp field the group sort uses besides `sortName`. */
  datatype TimeField = NewestItem | OldestItem

  /** The two helpers the grouping code imports and this model does not
      see: `sortGenericItemsInplace`, for items and for groups, and
      `classifyString`. */
  datatype Host = Host(
    sortItems: (seq<Item>, SortDirection) -> seq<Item>,
    sortGroups: (seq<Group>, SortDirection, TimeField) -> seq<Group>,
    classify: string -> string)

  /** All that is assumed of the foreign sort: it reorders its input. */
  ghost predicate Permutes(h: Host)
  {
    && (forall xs, d :: multiset(h.sortItems(xs, d)) == multiset(xs))
    && (forall gs, d, f :: multiset(h.sortGroups(gs, d, f)) == multiset(gs))
  }

  /** The parameters of `groupTodos`, in the source's order. An absent
      `groupByProperty`, `subGroupByType` or `parentId` is `None`. */
  datatype GroupArgs = GroupArgs(
    groupBy: GroupBy,
    sortGroups: SortDirection,
    sortItems: SortDirection,
    subGroupSort: SortDirection,
    groupByProperty: Option<string>,
    subGroupBy: Option<GroupBy>,
    parentId: Option<string>)

  /** `!subGroupByType || subGroupByType === 'none'`. */
  predicate NoSubgrouping(sub: Option<GroupBy>)
  {
    sub.None? || sub.value == NoGrouping
  }

  /** How many grouping levels are still to come below this call. */
  function SubLevel(sub: Option<GroupBy>): nat
  {
    if NoSubgrouping(sub) then 0 else 1
  }

  /** The arguments of the recursive call that builds the subgroups of
      the group with id `id`. */
  function SubArgs(a: GroupArgs, id: string): (s: GroupArgs)
    requires !NoSubgrouping(a.subGroupBy)
    ensures SubLevel(s.subGroupBy) < SubLevel(a.subGroupBy)
  {
    GroupArgs(a.subGroupBy.value, a.subGroupSort, a.sortItems, a.subGroupSort,
              None, Some(NoGrouping), Some(id))
  }

  function TimeFieldFor(d: SortDirection): TimeField
  {
    if d == NewToOld then NewestItem else OldestItem
  }

  /** `subHeading ?? 'No Heading'`. */
  function HeadingOf(item: Item): string
  {
    if item.subHeading.Some? then item.subHeading.value else "No Heading"
  }

  /** The folder of a path: every `/`-separated segment but the last,
      joined again; `/` for a path without a separator. */
  function FolderKey(path: string): string
  {
    var parts := Split(path, '/');
    if |parts| > 1 then Join(parts[..|parts| - 1], '/') else "/"
  }

  /** The stringified frontmatter value of the grouping property, when the
      property name and the value are both truthy. */
  function PropertyKey(item: Item, prop: Option<string>): string
  {
    if Truthy(prop) && prop.value in item.frontmatter && item.frontmatter[prop.value].truthy
    then item.frontmatter[prop.value].text
    else "No Property"
  }

  /** `#` and the present ones of `mainTag` and `subTag`, joined by `/`. */
  function CompositeTag(item: Item): (k: string)
    ensures item.mainTag.Some? && item.subTag.Some? ==> k == "#" + item.mainTag.value + "/" + item.subTag.value
  {
    var present := (if item.mainTag.Some? then [item.mainTag.value] else [])
                 + (if item.subTag.Some? then [item.subTag.value] else []);
    if item.mainTag.Some? && item.subTag.Some? then
      var main, sub := item.mainTag.value, item.subTag.value;
      assert present == [main, sub] && present[1..] == [sub];
      assert Join(present, '/') == main + ['/'] + sub;
      "#" + Join(present, '/')
    else
      "#" + Join(present, '/')
  }

  /** The key of an item before any parent prefix. Tag and 'none' keys
      start with `#`; an item lacking what its mode groups by gets that
      mode's fallback key. */
  function BaseKey(item: Item, groupBy: GroupBy, prop: Option<string>): (k: string)
    ensures groupBy == Page ==> k == item.filePath
    ensures groupBy == Heading && item.subHeading.None? ==> k == "No Heading"
    ensures groupBy == Heading && item.subHeading.Some? ==> k == item.subHeading.value
    ensures groupBy == Property && !(Truthy(prop) && prop.value in item.frontmatter && item.frontmatter[prop.value].truthy)
            ==> k == "No Property"
    ensures groupBy == Property && Truthy(prop) && prop.value in item.frontmatter && item.frontmatter[prop.value].truthy
            ==> k == item.frontmatter[prop.value].text
    ensures groupBy == Tag && !Truthy(item.mainTag) ==> k == "#No Tag"
    ensures groupBy == Tag && Truthy(item.mainTag) ==> k == "#" + item.mainTag.value
    ensures (groupBy == Tag || groupBy == NoGrouping) ==> "#" <= k
    ensures groupBy == NoGrouping && item.mainTag.None? && item.subTag.None? ==> k == "#"
    ensures groupBy == NoGrouping && item.mainTag.Some? && item.subTag.None? ==> k == "#" + item.mainTag.value
    ensures groupBy == NoGrouping && item.mainTag.None? && item.subTag.Some? ==> k == "#" + item.subTag.value
    ensures groupBy == NoGrouping && item.mainTag.Some? && item.subTag.Some?
            ==> k == "#" + item.mainTag.value + "/" + item.subTag.value
  {
    match groupBy
    case Page => item.filePath
    case Heading => HeadingOf(item)
    case Folder => FolderKey(item.filePath)
    case Property => PropertyKey(item, prop)
    case Tag => if Truthy(item.mainTag) then "#" + item.mainTag.value else "#No Tag"
    case NoGrouping => CompositeTag(item)
  }

  /** A truthy parent id prefixes the key as `parent::key`. */
  function PrefixKey(parentId: Option<string>, key: string): (k: string)
    ensures !Truthy(parentId) ==> k == key
    ensures Truthy(parentId) ==> parentId.value + "::" <= k && k[|parentId.value| + 2..] == key
  {
    if Truthy(parentId) then parentId.value + "::" + key else key
  }

  function ItemKey(item: Item, a: GroupArgs): string
  {
    PrefixKey(a.parentId, BaseKey(item, a.groupBy, a.groupByProperty))
  }

  /** The group created for the first item with key `key`, before that item
      is added: its kind, display fields and timestamps. The source starts
      `oldestItem` at Infinity, which the first item always lowers; here it
      starts at that item's timestamp. */
  function NewGroup(item: Item, key: string, groupBy: GroupBy, classify: string -> string): (g: Group)
    ensures g.id == key && g.todos == [] && g.groups == Unset && TypeOf(g.kind) == groupBy
    ensures g.newestItem == 0 && g.oldestItem == item.fileCreatedTs
    ensures groupBy == Page ==>
      g.kind == PageGroup(Some(item.fileLabel)) && g.sortName == item.fileLabel && g.className == classify(item.fileLabel)
    ensures groupBy == Tag ==>
      g.kind == TagGroup(item.mainTag, item.subTag) && g.sortName == key && g.className == classify(key)
    ensures groupBy == Heading ==>
      g.kind == HeadingGroup(HeadingOf(item)) && g.sortName == HeadingOf(item) && g.className == classify(HeadingOf(item))
    ensures groupBy == Folder ==> g.kind == FolderGroup(key) && g.sortName == key && g.className == classify(key)
    ensures groupBy == Property ==> g.kind == PropertyGroup(key) && g.sortName == key && g.className == classify(key)
    ensures groupBy == NoGrouping ==> g.kind == Untyped && g.sortName == "" && g.className == ""
  {
    var (kind, sortName, className) :=
      match groupBy
      case Page => (PageGroup(Some(item.fileLabel)), item.fileLabel, classify(item.fileLabel))
      case Tag => (TagGroup(item.mainTag, item.subTag), key, classify(key))
      case Heading => (HeadingGroup(HeadingOf(item)), HeadingOf(item), classify(HeadingOf(item)))
      case Folder => (FolderGroup(key), key, classify(key))
      case Property => (PropertyGroup(key), key, classify(key))
      case NoGrouping => (Untyped, "", "");
    Group(kind, [], key, sortName, className, item.fileCreatedTs, 0, Unset)
  }

  /** `g.todos.length > 0`. */
  predicate HasTodos(g: Group)
  {
    |g.todos| > 0
  }

  // ---------------------------------------------------------------------
  // The declarative description of the bucketing loop.

  /** The distinct keys of `items`, in the order they are first met. */
  function Keys(items: seq<Item>, a: GroupArgs): seq<string>
  {
    if items == [] then []
    else
      var ks := Keys(items[..|items| - 1], a);
      var k := ItemKey(items[|items| - 1], a);
      if k in ks then ks else ks + [k]
  }

  /** The items with key `k`, in input order. */
  function Members(items: seq<Item>, a: GroupArgs, k: string): seq<Item>
  {
    Filter(items, (x: Item) => ItemKey(x, a) == k)
  }

  /** The running maximum the loop keeps: the largest of 0 and the items'
      timestamps. */
  function Newest(ms: seq<Item>): int
  {
    if ms == [] then 0
    else
      var n := Newest(ms[..|ms| - 1]);
      var t := ms[|ms| - 1].fileCreatedTs;
      if n < t then t else n
  }

  /** The running minimum the loop keeps: the smallest of the items'
      timestamps. */
  function Oldest(ms: seq<Item>): int
    requires ms != []
  {
    if |ms| == 1 then ms[0].fileCreatedTs
    else
      var o := Oldest(ms[..|ms| - 1]);
      var t := ms[|ms| - 1].fileCreatedTs;
      if o > t then t else o
  }

  /** The group of key `k`: created from its first member, holding all its
      members, with their timestamp range. */
  function Build(items: seq<Item>, a: GroupArgs, classify: string -> string, k: string): (g: Group)
    requires Members(items, a, k) != []
    ensures g.id == k && g.todos == Members(items, a, k)
  {
    var ms := Members(items, a, k);
    NewGroup(ms[0], k, a.groupBy, classify).(todos := ms, newestItem := Newest(ms), oldestItem := Oldest(ms))
  }

  /** One group per distinct key, in first-encounter order. */
  function Buckets(items: seq<Item>, a: GroupArgs, classify: string -> string): (gs: seq<Group>)
    ensures |gs| == |Keys(items, a)|
  {
    var ks := Keys(items, a);
    KeysHaveMembers(items, a);
    seq(|ks|, i requires 0 <= i < |ks| => Build(items, a, classify, ks[i]))
  }

  /** What `groupTodos` returns, described without its loops. */
  function GroupTodosSpec(items: seq<Item>, a: GroupArgs, h: Host): seq<Group>
    decreases SubLevel(a.subGroupBy), 1
  {
    var nonEmpty := Filter(Buckets(items, a, h.classify), HasTodos);
    var sorted := h.sortGroups(nonEmpty, a.sortGroups, TimeFieldFor(a.sortGroups));
    seq(|sorted|, i requires 0 <= i < |sorted| => FinishGroup(sorted[i], a, h))
  }

  /** What happens to each group once the groups are sorted: without
      subgrouping its items are sorted, otherwise its subgroups are built
      from its items. */
  function FinishGroup(g: Group, a: GroupArgs, h: Host): Group
    decreases SubLevel(a.subGroupBy), 0
  {
    if NoSubgrouping(a.subGroupBy) then g.(todos := h.sortItems(g.todos, a.sortItems))
    else g.(groups := Subgroups(GroupTodosSpec(g.todos, SubArgs(a, g.id), h)))
  }

  // ---------------------------------------------------------------------
  // Facts about the description that the loop relies on.

  /** The keys are exactly the keys of the items. */
  lemma {:induction false} KeysMembership(items: seq<Item>, a: GroupArgs, k: string)
    ensures k in Keys(items, a) <==> exists x :: x in items && ItemKey(x, a) == k
  {
    if items != [] {
      var init, last := items[..|items| - 1], items[|items| - 1];
      KeysMembership(init, a, k);
      assert items == init + [last];
      if k in Keys(items, a) {
        if k in Keys(init, a) {
          var x :| x in init && ItemKey(x, a) == k;
          assert x in items;
        } else {
          assert last in items;
        }
      }
      if exists x :: x in items && ItemKey(x, a) == k {
        var x :| x in items && ItemKey(x, a) == k;
        assert x in init || x == last;
      }
    }
  }

  lemma KeysHaveMembers(items: seq<Item>, a: GroupArgs)
    ensures forall k :: k in Keys(items, a) ==> Members(items, a, k) != []
  {
    forall k | k in Keys(items, a)
      ensures Members(items, a, k) != []
    {
      MembersNonEmptyIffKey(items, a, k);
    }
  }

  lemma {:induction false} KeysDistinct(items: seq<Item>, a: GroupArgs)
    ensures forall i, j :: 0 <= i < j < |Keys(items, a)| ==> Keys(items, a)[i] != Keys(items, a)[j]
  {
    if items != [] {
      KeysDistinct(items[..|items| - 1], a);
    }
  }

  lemma {:induction false} FilterAppend<T>(s: seq<T>, x: T, p: T -> bool)
    ensures Filter(s + [x], p) == Filter(s, p) + (if p(x) then [x] else [])
  {
    if s != [] {
      assert (s + [x])[1..] == s[1..] + [x];
      FilterAppend(s[1..], x, p);
    }
  }

  /** Adding an item to its group, as the loop body does. */
  function AddItem(g: Group, item: Item): Group
  {
    g.(newestItem := if g.newestItem < item.fileCreatedTs then item.fileCreatedTs else g.newestItem,
       oldestItem := if g.oldestItem > item.fileCreatedTs then item.fileCreatedTs else g.oldestItem,
       todos := g.todos + [item])
  }

  /** Adding an item leaves the members of every other key as they were,
      and appends it to the members of its own key. */
  lemma MembersStep(s: seq<Item>, x: Item, a: GroupArgs, k: string)
    ensures Members(s + [x], a, k) == Members(s, a, k) + (if ItemKey(x, a) == k then [x] else [])
  {
    FilterAppend(s, x, (y: Item) => ItemKey(y, a) == k);
  }

  /** Adding an item to the input changes the group of an existing key
      only by adding the item to it when the item has that key. */
  lemma BuildStep(s: seq<Item>, x: Item, a: GroupArgs, c: string -> string, k: string)
    requires Members(s, a, k) != []
    ensures Members(s + [x], a, k) == Members(s, a, k) + (if ItemKey(x, a) == k then [x] else [])
    ensures Build(s + [x], a, c, k)
         == if ItemKey(x, a) == k then AddItem(Build(s, a, c, k), x) else Build(s, a, c, k)
  {
    var s' := s + [x];
    assert s'[..|s'| - 1] == s;
    MembersStep(s, x, a, k);
    var ms := Members(s, a, k);
    if ItemKey(x, a) == k {
      var ms' := ms + [x];
      var t := x.fileCreatedTs;
      assert Members(s', a, k) == ms';
      assert ms'[..|ms|] == ms && ms'[0] == ms[0] && ms'[|ms|] == x;
      assert Newest(ms') == if Newest(ms) < t then t else Newest(ms);
      assert Oldest(ms') == if Oldest(ms) > t then t else Oldest(ms);
      var g0 := NewGroup(ms[0], k, a.groupBy, c);
      assert Build(s, a, c, k) == g0.(todos := ms, newestItem := Newest(ms), oldestItem := Oldest(ms));
      assert Build(s', a, c, k) == g0.(todos := ms', newestItem := Newest(ms'), oldestItem := Oldest(ms'));
    } else {
      assert Members(s', a, k) == ms;
    }
  }

  /** One step of the bucketing loop when the item's key already has a
      group: the item joins that group and nothing else changes. */
  lemma BucketsStepExisting(s: seq<Item>, x: Item, a: GroupArgs, c: string -> string, j: nat)
    requires j < |Buckets(s, a, c)| && Buckets(s, a, c)[j].id == ItemKey(x, a)
    ensures Buckets(s + [x], a, c) == Buckets(s, a, c)[j := AddItem(Buckets(s, a, c)[j], x)]
  {
    var gs := Buckets(s, a, c);
    KeysHaveMembers(s, a);
    BucketsAt(s, a, c);
    BucketsAt(s + [x], a, c);
    var ks := Keys(s, a);
    var s' := s + [x];
    assert s'[..|s'| - 1] == s;
    KeysDistinct(s, a);
    assert Keys(s', a) == ks;
    var built := Buckets(s', a, c);
    var expected := gs[j := AddItem(gs[j], x)];
    forall m | 0 <= m < |gs|
      ensures built[m] == expected[m]
    {
      BuildStep(s, x, a, c, ks[m]);
      assert m != j ==> ks[m] != ks[j];
    }
  }

  /** One step of the bucketing loop when the item's key has no group yet:
      a new group holding just the item is appended. */
  lemma BucketsStepNew(s: seq<Item>, x: Item, a: GroupArgs, c: string -> string)
    requires forall j :: 0 <= j < |Buckets(s, a, c)| ==> Buckets(s, a, c)[j].id != ItemKey(x, a)
    ensures Buckets(s + [x], a, c) == Buckets(s, a, c) + [AddItem(NewGroup(x, ItemKey(x, a), a.groupBy, c), x)]
  {
    var gs := Buckets(s, a, c);
    KeysHaveMembers(s, a);
    BucketsAt(s, a, c);
    BucketsAt(s + [x], a, c);
    var k := ItemKey(x, a);
    var ks := Keys(s, a);
    var s' := s + [x];
    assert s'[..|s'| - 1] == s;
    assert k !in ks;
    assert Keys(s', a) == ks + [k];
    var built := Buckets(s', a, c);
    var expected := gs + [AddItem(NewGroup(x, k, a.groupBy, c), x)];
    forall m | 0 <= m < |gs|
      ensures built[m] == expected[m]
    {
      BuildStep(s, x, a, c, ks[m]);
    }
    NewKeyBuild(s, x, a, c);
  }

  lemma BucketsAt(s: seq<Item>, a: GroupArgs, c: string -> string)
    ensures forall k :: k in Keys(s, a) ==> Members(s, a, k) != []
    ensures forall i :: 0 <= i < |Buckets(s, a, c)| ==>
      Buckets(s, a, c)[i] == Build(s, a, c, Keys(s, a)[i]) && Buckets(s, a, c)[i].id == Keys(s, a)[i]
  {
    KeysHaveMembers(s, a);
  }

  /** A key has members exactly when it is one of the keys. */
  lemma MembersNonEmptyIffKey(s: seq<Item>, a: GroupArgs, k: string)
    ensures Members(s, a, k) != [] <==> k in Keys(s, a)
  {
    var ms := Members(s, a, k);
    var p := (x: Item) => ItemKey(x, a) == k;
    KeysMembership(s, a, k);
    if ms != [] {
      FilterMembers(s, p, ms[0]);
    }
    if k in Keys(s, a) {
      var x :| x in s && ItemKey(x, a) == k;
      FilterMembers(s, p, x);
    }
  }

  /** The group founded by an item whose key is new holds that item alone. */
  lemma NewKeyBuild(s: seq<Item>, x: Item, a: GroupArgs, c: string -> string)
    requires ItemKey(x, a) !in Keys(s, a)
    ensures Members(s + [x], a, ItemKey(x, a)) == [x]
    ensures Build(s + [x], a, c, ItemKey(x, a)) == AddItem(NewGroup(x, ItemKey(x, a), a.groupBy, c), x)
  {
    var k := ItemKey(x, a);
    var s' := s + [x];
    assert s'[..|s'| - 1] == s;
    MembersStep(s, x, a, k);
    MembersNonEmptyIffKey(s, a, k);
    assert Members(s', a, k) == [x];
    assert [x][..0] == [];
    var g := NewGroup(x, k, a.groupBy, c);
    assert Build(s', a, c, k) == g.(todos := [x], newestItem := Newest([x]), oldestItem := Oldest([x]));
    assert Newest([x]) == if 0 < x.fileCreatedTs then x.fileCreatedTs else 0;
  }

  // ---------------------------------------------------------------------
  // The engine itself.

  /** `groups.find(g => g.id === id)`, as the position of the first group
      with that id, or `|groups|` when there is none. */
  method FindGroup(groups: seq<Group>, id: string) returns (j: nat)
    ensures j <= |groups|
    ensures j < |groups| ==> groups[j].id == id
    ensures forall m :: 0 <= m < j ==> groups[m].id != id
  {
    j := 0;
    while j < |groups| && groups[j].id != id
      invariant j <= |groups|
      invariant forall m :: 0 <= m < j ==> groups[m].id != id
    {
      j := j + 1;
    }
  }

  /** The body of the bucketing loop: find the group whose id is the item's
      key, creating it at the end when there is none, then raise its
      `newestItem`, lower its `oldestItem` and push the item. The group is
      an object the array shares, so the updated value is stored back at its
      position. `j` is that position. */
  method PlaceItem(groups: seq<Group>, item: Item, key: string, groupBy: GroupBy, classify: string -> string)
    returns (updated: seq<Group>, j: nat)
    ensures j <= |groups|
    ensures j < |groups| ==> groups[j].id == key && updated == groups[j := AddItem(groups[j], item)]
    ensures j == |groups| ==> (forall m :: 0 <= m < |groups| ==> groups[m].id != key)
                              && updated == groups + [AddItem(NewGroup(item, key, groupBy, classify), item)]
  {
    j := FindGroup(groups, key);
    var g: Group;
    if j == |groups| {
      g := NewGroup(item, key, groupBy, classify);
    } else {
      g := groups[j];
    }
    if g.newestItem < item.fileCreatedTs {
      g := g.(newestItem := item.fileCreatedTs);
    }
    if g.oldestItem > item.fileCreatedTs {
      g := g.(oldestItem := item.fileCreatedTs);
    }
    g := g.(todos := g.todos + [item]);
    if j == |groups| {
      updated := groups + [g];
    } else {
      updated := groups[j := g];
    }
  }

  /** The loop over the items (lines 15-80): each item joins the group of
      its key, in first-encounter order of the keys. */
  method BucketItems(items: seq<Item>, a: GroupArgs, classify: string -> string) returns (groups: seq<Group>)
    ensures groups == Buckets(items, a, classify)
  {
    groups := [];
    for i := 0 to |items|
      invariant groups == Buckets(items[..i], a, classify)
    {
      var item := items[i];
      ghost var before := groups;
      var j;
      groups, j := PlaceItem(groups, item, ItemKey(item, a), a.groupBy, classify);
      if j == |before| {
        BucketsStepNew(items[..i], item, a, classify);
      } else {
        BucketsStepExisting(items[..i], item, a, classify, j);
      }
      assert items[..i + 1] == items[..i] + [item];
    }
    assert items[..|items|] == items;
  }

  /** `groupTodos`: buckets the items by key, drops empty groups, sorts the
      groups, then sorts each group's items or builds its subgroups by
      calling itself once more with subgrouping switched off. */
  method GroupTodos(items: seq<Item>, a: GroupArgs, h: Host) returns (r: seq<Group>)
    ensures r == GroupTodosSpec(items, a, h)
    decreases SubLevel(a.subGroupBy)
  {
    var groups := BucketItems(items, a, h.classify);

    var nonEmpty := Filter(groups, HasTodos);
    var sorted := h.sortGroups(nonEmpty, a.sortGroups, TimeFieldFor(a.sortGroups));
    ghost var unsorted := sorted;
    if NoSubgrouping(a.subGroupBy) {
      for k := 0 to |sorted|
        invariant |sorted| == |unsorted|
        invariant forall m :: 0 <= m < k ==> sorted[m] == FinishGroup(unsorted[m], a, h)
        invariant forall m :: k <= m < |sorted| ==> sorted[m] == unsorted[m]
      {
        sorted := sorted[k := sorted[k].(todos := h.sortItems(sorted[k].todos, a.sortItems))];
      }
    } else {
      for k := 0 to |sorted|
        invariant |sorted| == |unsorted|
        invariant forall m :: 0 <= m < k ==> sorted[m] == FinishGroup(unsorted[m], a, h)
        invariant forall m :: k <= m < |sorted| ==> sorted[m] == unsorted[m]
      {
        var sub := GroupTodos(sorted[k].todos, SubArgs(a, sorted[k].id), h);
        sorted := sorted[k := sorted[k].(groups := Subgroups(sub))];
      }
    }
    r := sorted;
  }
}

=== FILE: search.dfy ===
/** The search box of the view (src/view.ts): the display name of a group
    and the case-insensitive filter over the group tree. */
module Search {
  import opened Types
  import opened Text

  /** `getGroupName`: the payload of page, heading, folder and property
      groups, `#main` or `#main/sub` for a tag group with a main tag,
      "No Tag" for one without, and "" for groups of the 'none' mode. */
  function GroupName(g: Group): (name: string)
    ensures g.kind.Untyped? ==> name == ""
    ensures g.kind.TagGroup? ==> (name == "No Tag" <==> !Truthy(g.kind.mainTag))
    ensures g.kind.TagGroup? && Truthy(g.kind.mainTag) && !Truthy(g.kind.subTags) ==> name == "#" + g.kind.mainTag.value
    ensures g.kind.TagGroup? && Truthy(g.kind.mainTag) && Truthy(g.kind.subTags) ==>
      name == "#" + g.kind.mainTag.value + "/" + g.kind.subTags.value
    ensures g.kind.PageGroup? && g.kind.pageName.None? ==> name == ""
    ensures g.kind.PageGroup? && g.kind.pageName.Some? ==> name == g.kind.pageName.value
    ensures g.kind.HeadingGroup? ==> name == g.kind.heading
    ensures g.kind.FolderGroup? ==> name == g.kind.folderName
    ensures g.kind.PropertyGroup? ==> name == g.kind.propertyValue
  {
    match g.kind
    case PageGroup(pageName) => if pageName.Some? then pageName.value else ""
    case HeadingGroup(heading) => heading
    case FolderGroup(folderName) => folderName
    case PropertyGroup(propertyValue) => propertyValue
    case TagGroup(mainTag, subTags) =>
      if Truthy(mainTag) then
        var name := "#" + mainTag.value + (if Truthy(subTags) then "/" + subTags.value else "");
        assert name[0] != "No Tag"[0];
        name
      else "No Tag"
    case Untyped => ""
  }

  /** The group's name contains the term, ignoring case. */
  predicate NameMatches(g: Group, term: string)
  {
    Contains(Lower(GroupName(g)), Lower(term))
  }

  /** The item's text contains the term, ignoring case. */
  predicate TextMatches(x: Item, term: string)
  {
    Contains(Lower(x.originalText), Lower(term))
  }

  /** Two groups that differ at most in their items and subgroups. */
  predicate SameShell(kept: Group, g: Group)
  {
    kept == g.(todos := kept.todos, groups := kept.groups)
  }

  /** `filterGroups`: the groups that survive the search, in their order. */
  function FilterGroups(gs: seq<Group>, term: string): (r: seq<Group>)
    ensures |r| <= |gs|
    decreases gs
  {
    if gs == [] then [] else FilterGroup(gs[0], term) + FilterGroups(gs[1..], term)
  }

  /** One step of the `reduce` in `filterGroups`: a group whose name matches
      is kept whole; otherwise a copy holding only the matching items and
      the surviving subgroups is kept when either is non-empty. */
  function FilterGroup(g: Group, term: string): (r: seq<Group>)
    ensures |r| <= 1
    ensures r != [] ==> SameShell(r[0], g)
    decreases g
  {
    if NameMatches(g, term) then [g]
    else
      var todos := Filter(g.todos, (x: Item) => TextMatches(x, term));
      var groups :=
        match g.groups
        case Unset => Unset
        case Subgroups(list) => Subgroups(FilterGroups(list, term));
      if |todos| > 0 || (groups.Subgroups? && |groups.list| > 0) then [g.(todos := todos, groups := groups)]
      else []
  }

  // ---------------------------------------------------------------------
  // Properties

  /** An empty term matches every name, so it filters nothing out. */
  lemma {:induction false} FilterEmptyTerm(gs: seq<Group>)
    ensures FilterGroups(gs, "") == gs
  {
    if gs != [] {
      assert Lower("") == "";
      assert NameMatches(gs[0], "");
      FilterEmptyTerm(gs[1..]);
    }
  }

  /** A group whose name matches comes through unchanged, with all its
      items and subgroups. */
  lemma {:induction false} NameMatchKept(gs: seq<Group>, term: string, i: nat)
    requires i < |gs| && NameMatches(gs[i], term)
    ensures gs[i] in FilterGroups(gs, term)
  {
    if i > 0 {
      NameMatchKept(gs[1..], term, i - 1);
    }
  }

  /** Somewhere in the group's subtree a name or an item text matches. */
  ghost predicate HasMatch(g: Group, term: string)
    decreases g
  {
    || NameMatches(g, term)
    || (exists x :: x in g.todos && TextMatches(x, term))
    || (g.groups.Subgroups? && exists i :: 0 <= i < |g.groups.list| && HasMatch(g.groups.list[i], term))
  }

  /** A group survives exactly when something in its subtree matches. */
  lemma {:induction false} FilterGroupKeptIff(g: Group, term: string)
    ensures FilterGroup(g, term) != [] <==> HasMatch(g, term)
    decreases g
  {
    if !NameMatches(g, term) {
      var p := (x: Item) => TextMatches(x, term);
      var todos := Filter(g.todos, p);
      if |todos| > 0 {
        FilterMembers(g.todos, p, todos[0]);
      }
      if x :| x in g.todos && TextMatches(x, term) {
        FilterMembers(g.todos, p, x);
      }
      if g.groups.Subgroups? {
        FilterGroupsKeptIff(g.groups.list, term);
      }
    }
  }

  lemma {:induction false} FilterGroupsKeptIff(gs: seq<Group>, term: string)
    ensures FilterGroups(gs, term) != [] <==> exists i :: 0 <= i < |gs| && HasMatch(gs[i], term)
    decreases gs
  {
    if gs != [] {
      FilterGroupKeptIff(gs[0], term);
      FilterGroupsKeptIff(gs[1..], term);
      if exists i :: 0 <= i < |gs| && HasMatch(gs[i], term) {
        var i :| 0 <= i < |gs| && HasMatch(gs[i], term);
        if i > 0 {
          assert HasMatch(gs[1..][i - 1], term);
        }
      }
      if exists i :: 0 <= i < |gs[1..]| && HasMatch(gs[1..][i], term) {
        var i :| 0 <= i < |gs[1..]| && HasMatch(gs[1..][i], term);
        assert HasMatch(gs[i + 1], term);
      }
    }
  }

  /** Why a group is in the result: its name matches, or all its items
      match and it keeps an item or a subgroup that is there for the same
      reason. */
  ghost predicate Justified(g: Group, term: string)
    decreases g
  {
    || NameMatches(g, term)
    || (&& (forall x :: x in g.todos ==> TextMatches(x, term))
        && (|g.todos| > 0 || (g.groups.Subgroups? && |g.groups.list| > 0))
        && (g.groups.Subgroups? ==>
              forall i :: 0 <= i < |g.groups.list| ==> Justified(g.groups.list[i], term)))
  }

  /** Every group of the result is justified by a match. */
  lemma {:induction false} FilterGroupsJustified(gs: seq<Group>, term: string)
    ensures forall i :: 0 <= i < |FilterGroups(gs, term)| ==> Justified(FilterGroups(gs, term)[i], term)
    decreases gs
  {
    if gs != [] {
      FilterGroupJustified(gs[0], term);
      FilterGroupsJustified(gs[1..], term);
    }
  }

  lemma {:induction false} FilterGroupJustified(g: Group, term: string)
    ensures FilterGroup(g, term) != [] ==> Justified(FilterGroup(g, term)[0], term)
    decreases g
  {
    if !NameMatches(g, term) && FilterGroup(g, term) != [] {
      var p := (x: Item) => TextMatches(x, term);
      forall x | x in Filter(g.todos, p)
        ensures TextMatches(x, term)
      {
        FilterMembers(g.todos, p, x);
      }
      if g.groups.Subgroups? {
        FilterGroupsJustified(g.groups.list, term);
      }
      var kept := FilterGroup(g, term)[0];
      assert kept.todos == Filter(g.todos, p);
    }
  }

  /** `r` is `gs` with groups dropped and, recursively, items and subgroups
      dropped from the groups kept, everything in its original order. */
  ghost predicate Pruned(r: seq<Group>, gs: seq<Group>)
    decreases gs
  {
    if r == [] then true
    else if gs == [] then false
    else
      || (&& SameShell(r[0], gs[0])
          && IsSubseq(r[0].todos, gs[0].todos)
          && (r[0].groups.Subgroups? ==>
                gs[0].groups.Subgroups? && Pruned(r[0].groups.list, gs[0].groups.list))
          && Pruned(r[1..], gs[1..]))
      || Pruned(r, gs[1..])
  }

  lemma {:induction false} SubseqRefl<T>(s: seq<T>)
    ensures IsSubseq(s, s)
  {
    if s != [] {
      SubseqRefl(s[1..]);
    }
  }

  lemma {:induction false} PrunedRefl(gs: seq<Group>)
    ensures Pruned(gs, gs)
    decreases gs
  {
    if gs != [] {
      SubseqRefl(gs[0].todos);
      if gs[0].groups.Subgroups? {
        PrunedRefl(gs[0].groups.list);
      }
      PrunedRefl(gs[1..]);
    }
  }

  /** Dropping groups at the front keeps a pruning a pruning. */
  lemma {:induction false} PrunedSkip(r: seq<Group>, gs: seq<Group>)
    requires gs != [] && Pruned(r, gs[1..])
    ensures Pruned(r, gs)
  {
  }

  /** The search result is a pruning of its input: the output order is a
      subsequence of the input order, at every level. */
  lemma {:induction false} FilterGroupsPruned(gs: seq<Group>, term: string)
    ensures Pruned(FilterGroups(gs, term), gs)
    decreases gs
  {
    if gs != [] {
      var head := FilterGroup(gs[0], term);
      var rest := FilterGroups(gs[1..], term);
      FilterGroupsPruned(gs[1..], term);
      if head == [] {
        assert FilterGroups(gs, term) == rest;
        if rest != [] {
          PrunedSkip(rest, gs);
        }
      } else {
        var r := head + rest;
        assert r[0] == head[0] && r[1..] == rest;
        FilterGroupPruned(gs[0], term);
      }
    }
  }

  lemma {:induction false} FilterGroupPruned(g: Group, term: string)
    requires FilterGroup(g, term) != []
    ensures var kept := FilterGroup(g, term)[0];
      && SameShell(kept, g)
      && IsSubseq(kept.todos, g.todos)
      && (kept.groups.Subgroups? ==> g.groups.Subgroups? && Pruned(kept.groups.list, g.groups.list))
    decreases g
  {
    if NameMatches(g, term) {
      SubseqRefl(g.todos);
      if g.groups.Subgroups? {
        PrunedRefl(g.groups.list);
      }
    } else {
      FilterSubseq(g.todos, (x: Item) => TextMatches(x, term));
      if g.groups.Subgroups? {
        FilterGroupsPruned(g.groups.list, term);
      }
    }
  }

  /** An item of a kept copy comes from the group, and its text matches
      unless the group's name does. */
  lemma FilterGroupItems(g: Group, term: string, x: Item)
    requires FilterGroup(g, term) != [] && x in FilterGroup(g, term)[0].todos
    ensures x in g.todos
    ensures NameMatches(g, term) || TextMatches(x, term)
  {
    if !NameMatches(g, term) {
      FilterMembers(g.todos, (y: Item) => TextMatches(y, term), x);
    }
  }

  /** Every item of a group whose text matches is in the group's kept copy. */
  lemma MatchingItemKept(g: Group, term: string, x: Item)
    requires x in g.todos && TextMatches(x, term)
    ensures FilterGroup(g, term) != [] && x in FilterGroup(g, term)[0].todos
  {
    if !NameMatches(g, term) {
      FilterMembers(g.todos, (y: Item) => TextMatches(y, term), x);
    }
  }

  /** Every item of the result is an item of an input group, and its text
      matches unless that group's name does. */
  lemma {:induction false} FilterGroupsItems(gs: seq<Group>, term: string, i: nat, x: Item)
    requires i < |FilterGroups(gs, term)| && x in FilterGroups(gs, term)[i].todos
    ensures exists j :: 0 <= j < |gs| && x in gs[j].todos && (NameMatches(gs[j], term) || TextMatches(x, term))
    decreases gs
  {
    assert gs != [];
    var head := FilterGroup(gs[0], term);
    var rest := FilterGroups(gs[1..], term);
    assert FilterGroups(gs, term) == head + rest;
    if i < |head| {
      FilterGroupItems(gs[0], term, x);
    } else {
      assert FilterGroups(gs, term)[i] == rest[i - |head|];
      FilterGroupsItems(gs[1..], term, i - |head|, x);
      var j :| 0 <= j < |gs[1..]| && x in gs[1..][j].todos && (NameMatches(gs[1..][j], term) || TextMatches(x, term));
      assert gs[1..][j] == gs[j + 1];
    }
  }

  /** Every item of an input group whose text matches is in the result. */
  lemma {:induction false} MatchingItemsKept(gs: seq<Group>, term: string, j: nat, x: Item)
    requires j < |gs| && x in gs[j].todos && TextMatches(x, term)
    ensures exists i :: 0 <= i < |FilterGroups(gs, term)| && x in FilterGroups(gs, term)[i].todos
    decreases gs
  {
    var head := FilterGroup(gs[0], term);
    var rest := FilterGroups(gs[1..], term);
    assert FilterGroups(gs, term) == head + rest;
    if j == 0 {
      MatchingItemKept(gs[0], term, x);
      assert FilterGroups(gs, term)[0] == head[0];
    } else {
      MatchingItemsKept(gs[1..], term, j - 1, x);
      var i :| 0 <= i < |rest| && x in rest[i].todos;
      assert FilterGroups(gs, term)[|head| + i] == rest[i];
    }
  }

  /** When a group's name does not match, every matching item of one of its
      subgroups is kept in a subgroup of the group's kept copy. */
  lemma SubgroupMatchesKept(g: Group, term: string, j: nat, x: Item)
    requires !NameMatches(g, term) && g.groups.Subgroups? && j < |g.groups.list|
    requires x in g.groups.list[j].todos && TextMatches(x, term)
    ensures FilterGroup(g, term) != [] && FilterGroup(g, term)[0].groups.Subgroups?
    ensures exists k :: 0 <= k < |FilterGroup(g, term)[0].groups.list| && x in FilterGroup(g, term)[0].groups.list[k].todos
  {
    MatchingItemsKept(g.groups.list, term, j, x);
  }
}

=== FILE: tags.dfy ===
/** The tag settings of the view (src/view.ts): the tags named in the
    `todoPageName` setting, one per line, and those of them not hidden. */
module Tags {
  import opened Text

  /** `todoTagArray`: the trimmed setting split into lines, lowercased,
      without empty lines. */
  function TodoTags(setting: string): (tags: seq<string>)
    ensures forall t :: t in tags ==> t != "" && '\n' !in t
  {
    var lines := Split(Trim(setting), '\n');
    var lowered := seq(|lines|, i requires 0 <= i < |lines| => Lower(lines[i]));
    var tags := Filter(lowered, (t: string) => t != "");
    forall t | t in tags
      ensures t != "" && '\n' !in t
    {
      FilterMembers(lowered, (t: string) => t != "", t);
      var i :| 0 <= i < |lines| && lowered[i] == t;
      LowerKeepsNewlines(lines[i]);
    }
    tags
  }

  /** Lowercasing neither adds nor removes line breaks. */
  lemma LowerKeepsNewlines(s: string)
    ensures '\n' in Lower(s) <==> '\n' in s
  {
    if '\n' in s {
      var i :| 0 <= i < |s| && s[i] == '\n';
      assert Lower(s)[i] == '\n';
    }
    if '\n' in Lower(s) {
      var i :| 0 <= i < |s| && Lower(s)[i] == '\n';
      assert s[i] == '\n';
    }
  }

  /** Lowercasing twice is lowercasing once. */
  lemma LowerIdempotent(s: string)
    ensures Lower(Lower(s)) == Lower(s)
  {
    forall i | 0 <= i < |s|
      ensures Lower(Lower(s))[i] == Lower(s)[i]
    {
      assert LowerChar(LowerChar(s[i])) == LowerChar(s[i]);
    }
  }

  /** The tags are exactly the non-empty lines of the trimmed setting,
      lowercased; each is already in lower case. */
  lemma TodoTagsMembers(setting: string, t: string)
    ensures t in TodoTags(setting) <==>
      exists line :: line in Split(Trim(setting), '\n') && line != "" && Lower(line) == t
    ensures t in TodoTags(setting) ==> Lower(t) == t
  {
    var lines := Split(Trim(setting), '\n');
    var lowered := seq(|lines|, i requires 0 <= i < |lines| => Lower(lines[i]));
    FilterMembers(lowered, (u: string) => u != "", t);
    if t in TodoTags(setting) {
      var i :| 0 <= i < |lines| && lowered[i] == t;
      assert lines[i] in lines;
      LowerIdempotent(lines[i]);
    }
    if exists line :: line in lines && line != "" && Lower(line) == t {
      var line :| line in lines && line != "" && Lower(line) == t;
      var i :| 0 <= i < |lines| && lines[i] == line;
      assert lowered[i] == t;
    }
  }

  /** `visibleTodoTagArray`: the tags that are not hidden. */
  function VisibleTags(setting: string, hidden: seq<string>): (tags: seq<string>)
    ensures |tags| <= |TodoTags(setting)|
  {
    Filter(TodoTags(setting), (t: string) => t !in hidden)
  }

  /** The visible tags are the tags not hidden, in the order of the
      setting. */
  lemma VisibleTagsMembers(setting: string, hidden: seq<string>, t: string)
    ensures t in VisibleTags(setting, hidden) <==> t in TodoTags(setting) && t !in hidden
    ensures IsSubseq(VisibleTags(setting, hidden), TodoTags(setting))
  {
    FilterMembers(TodoTags(setting), (u: string) => u !in hidden, t);
    FilterSubseq(TodoTags(setting), (u: string) => u !in hidden);
  }

  /** The tags handed to the parser: `*` when no tag is configured, the
      visible tags otherwise. The parser gets no tag at all exactly when
      tags are configured and every one of them is hidden. */
  function ParserTags(setting: string, hidden: seq<string>): (tags: seq<string>)
    ensures forall t :: t in tags <==>
      (TodoTags(setting) == [] && t == "*") || (t in TodoTags(setting) && t !in hidden)
    ensures tags == [] <==> TodoTags(setting) != [] && forall t :: t in TodoTags(setting) ==> t in hidden
  {
    if |TodoTags(setting)| == 0 then ["*"]
    else
      var tags := VisibleTags(setting, hidden);
      forall t
        ensures t in tags <==> t in TodoTags(setting) && t !in hidden
      {
        VisibleTagsMembers(setting, hidden, t);
      }
      assert tags != [] ==> tags[0] in tags;
      tags
  }

  /** A setting naming only the tag `*` asks the parser for the same tags
      as an empty setting: `*`, which stands for every tag. */
  lemma StarSettingIsUnset(hidden: seq<string>)
    requires "*" !in hidden
    ensures ParserTags("*", hidden) == ParserTags("", hidden) == ["*"]
  {
  }
}

=== FILE: text.dfy ===
/** The JavaScript string and array operations the plugin relies on:
    `split`, `join`, `trim`, `toLowerCase`, `includes` and `filter`. */
module Text {

  /** `s.split(sep)` for a one-character separator: the pieces between the
      separators, so there is always one more piece than separators. */
  function Split(s: string, sep: char): (parts: seq<string>)
    ensures |parts| >= 1
    ensures forall i :: 0 <= i < |parts| ==> sep !in parts[i]
  {
    if s == [] then [[]]
    else
      var rest := Split(s[1..], sep);
      if s[0] == sep then [[]] + rest
      else [[s[0]] + rest[0]] + rest[1..]
  }

  /** `parts.join(sep)`. */
  function Join(parts: seq<string>, sep: char): string
  {
    if |parts| == 0 then []
    else if |parts| == 1 then parts[0]
    else parts[0] + [sep] + Join(parts[1..], sep)
  }

  /** Joining the pieces of a split with the same separator gives back the
      original string. */
  lemma {:induction false} JoinSplit(s: string, sep: char)
    ensures Join(Split(s, sep), sep) == s
  {
    if s != [] {
      var rest := Split(s[1..], sep);
      JoinSplit(s[1..], sep);
      if s[0] == sep {
        assert Split(s, sep) == [[]] + rest;
      } else if |rest| > 1 {
        assert Join(rest, sep) == rest[0] + [sep] + Join(rest[1..], sep);
      }
    }
  }

  /** A string without the separator is one piece. */
  lemma {:induction false} SplitWithoutSeparator(s: string, sep: char)
    requires sep !in s
    ensures Split(s, sep) == [s]
  {
    if s != [] {
      assert sep !in s[1..] by {
        forall c | c in s[1..] ensures c != sep { }
      }
      SplitWithoutSeparator(s[1..], sep);
      assert s == [s[0]] + s[1..];
    }
  }

  /** Splitting at a separator followed by a separator-free tail splits the
      head and adds the tail as the last piece. */
  lemma {:induction false} SplitBeforeTail(a: string, sep: char, b: string)
    requires sep !in b
    ensures Split(a + [sep] + b, sep) == Split(a, sep) + [b]
  {
    var s := a + [sep] + b;
    if a == [] {
      assert s[1..] == b;
      SplitWithoutSeparator(b, sep);
    } else {
      assert s[1..] == a[1..] + [sep] + b;
      SplitBeforeTail(a[1..], sep, b);
    }
  }

  /** The index of the last occurrence of `c` in `s`. */
  function LastIndexOf(s: string, c: char): (i: nat)
    requires c in s
    ensures i < |s| && s[i] == c && c !in s[i + 1..]
  {
    if s[|s| - 1] == c then |s| - 1
    else
      assert c in s[..|s| - 1] by {
        var k :| 0 <= k < |s| && s[k] == c;
        assert s[..|s| - 1][k] == c;
      }
      var i := LastIndexOf(s[..|s| - 1], c);
      assert s[i + 1..] == s[..|s| - 1][i + 1..] + [s[|s| - 1]];
      i
  }

  /** `toLowerCase` on the ASCII range; other characters are kept. */
  function LowerChar(c: char): char
  {
    if 'A' <= c <= 'Z' then (c as int + 32) as char else c
  }

  function Lower(s: string): (r: string)
    ensures |r| == |s|
  {
    seq(|s|, i requires 0 <= i < |s| => LowerChar(s[i]))
  }

  /** `hay.includes(needle)`: `needle` occurs as a contiguous substring. */
  predicate Contains(hay: string, needle: string)
  {
    needle <= hay || (hay != [] && Contains(hay[1..], needle))
  }

  /** The characters `trim` removes: white space (tab, vertical tab, form
      feed, space, no-break space, byte order mark and the other space
      separators) and line terminators. */
  predicate IsSpace(c: char)
  {
    || c == '\t' || c == '\U{000B}' || c == '\U{000C}' || c == ' ' || c == '\U{00A0}' || c == '\U{FEFF}'
    || c == '\U{1680}' || '\U{2000}' <= c <= '\U{200A}' || c == '\U{202F}' || c == '\U{205F}' || c == '\U{3000}'
    || c == '\n' || c == '\r' || c == '\U{2028}' || c == '\U{2029}'
  }

  function TrimStart(s: string): (r: string)
    ensures r == [] || !IsSpace(r[0])
    ensures |r| <= |s| && r == s[|s| - |r|..]
    ensures forall i :: 0 <= i < |s| - |r| ==> IsSpace(s[i])
  {
    if s != [] && IsSpace(s[0]) then TrimStart(s[1..]) else s
  }

  function TrimEnd(s: string): (r: string)
    ensures r == [] || !IsSpace(r[|r| - 1])
    ensures |r| <= |s| && r == s[..|r|]
    ensures forall i :: |r| <= i < |s| ==> IsSpace(s[i])
  {
    if s != [] && IsSpace(s[|s| - 1]) then TrimEnd(s[..|s| - 1]) else s
  }

  /** `trim`: leading and trailing whitespace removed. */
  function Trim(s: string): string
  {
    TrimEnd(TrimStart(s))
  }

  /** `a` occurs in `b` in the same order, possibly with gaps. */
  ghost predicate IsSubseq<T>(a: seq<T>, b: seq<T>)
  {
    if a == [] then true
    else if b == [] then false
    else (a[0] == b[0] && IsSubseq(a[1..], b[1..])) || IsSubseq(a, b[1..])
  }

  /** `s.filter(p)`: the elements satisfying `p`, in their original order. */
  function Filter<T>(s: seq<T>, p: T -> bool): (r: seq<T>)
    ensures |r| <= |s|
  {
    if s == [] then []
    else if p(s[0]) then [s[0]] + Filter(s[1..], p)
    else Filter(s[1..], p)
  }

  /** A filter keeps exactly the elements that satisfy its predicate. */
  lemma {:induction false} FilterMembers<T>(s: seq<T>, p: T -> bool, x: T)
    ensures x in Filter(s, p) <==> x in s && p(x)
  {
    if s != [] {
      FilterMembers(s[1..], p, x);
      assert x in s <==> x == s[0] || x in s[1..];
    }
  }

  /** A filter keeps its elements in their original order. */
  lemma {:induction false} FilterSubseq<T>(s: seq<T>, p: T -> bool)
    ensures IsSubseq(Filter(s, p), s)
  {
    if s != [] {
      FilterSubseq(s[1..], p);
      var r := Filter(s[1..], p);
      if p(s[0]) {
        assert ([s[0]] + r)[1..] == r;
      }
    }
  }

  /** A filter whose predicate holds of every element keeps the sequence
      as it is. */
  lemma {:induction false} FilterAll<T>(s: seq<T>, p: T -> bool)
    requires forall x :: x in s ==> p(x)
    ensures Filter(s, p) == s
  {
    if s != [] {
      FilterAll(s[1..], p);
    }
  }
}

=== FILE: types.dfy ===
/** The plugin's data model: checklist items, the grouping tree and the
    enumerations that configure grouping and sorting (src/_types.ts). */
module Types {

  datatype Option<+T> = None | Some(value: T)

  /** JavaScript truthiness of an optional string: absent and "" are falsy. */
  predicate Truthy(s: Option<string>)
  {
    s.Some? && s.value != ""
  }

  /** One frontmatter value as the grouping code sees it: `text` is what
      `String(value)` gives and `truthy` is the value's JavaScript truthiness
      (a `false`, `0` or "" value is falsy, an empty list is truthy). */
  datatype FrontmatterValue = FrontmatterValue(text: string, truthy: bool)

  /** A checklist line. Of the source's `fileInfo` record only the parsed
      frontmatter is kept, because it is the only part grouping reads. */
  datatype Item = Item(
    checked: bool,
    status: Option<string>,
    filePath: string,
    fileName: string,
    fileLabel: string,
    fileCreatedTs: int,
    mainTag: Option<string>,
    subTag: Option<string>,
    subHeading: Option<string>,
    line: int,
    spacesIndented: int,
    frontmatter: map<string, FrontmatterValue>,
    originalText: string,
    rawHTML: string)

  /** The six grouping modes; `NoGrouping` is the source's 'none'. */
  datatype GroupBy = Page | Tag | Heading | Folder | Property | NoGrouping

  datatype SortDirection = NewToOld | OldToNew | AToZ | ZToA

  /** The variant-specific part of a group. `Untyped` is the shape of the
      groups that grouping by 'none' produces: they carry no payload. */
  datatype GroupKind =
    | PageGroup(pageName: Option<string>)
    | TagGroup(mainTag: Option<string>, subTags: Option<string>)
    | HeadingGroup(heading: string)
    | FolderGroup(folderName: string)
    | PropertyGroup(propertyValue: string)
    | Untyped

  /** The optional `groups` field: unset, or the list of subgroups. */
  datatype Subgroups = Unset | Subgroups(list: seq<Group>)

  /** A group of the tree: the shared base record plus its kind. */
  datatype Group = Group(
    kind: GroupKind,
    todos: seq<Item>,
    id: string,
    sortName: string,
    className: string,
    oldestItem: int,
    newestItem: int,
    groups: Subgroups)

  /** The `type` discriminator of a group. */
  function TypeOf(k: GroupKind): (t: GroupBy)
    ensures t == NoGrouping <==> k.Untyped?
  {
    match k
    case PageGroup(_) => Page
    case TagGroup(_, _) => Tag
    case HeadingGroup(_) => Heading
    case FolderGroup(_) => Folder
    case PropertyGroup(_) => Property
    case Untyped => NoGrouping
  }
}

=== FILE: view.dfy ===
/** The todo list view (src/view.ts): the item cache it keeps per file,
    the grouping of the cached items and the search term. */
module View {
  import opened Types
  import opened Text
  import opened Groups
  import opened GroupProperties
  import opened Search
  import opened Tags
  import opened FileCache

  /** The settings the view reads. */
  datatype Settings = Settings(
    todoPageName: string,
    hiddenTags: seq<string>,
    includeFiles: string,
    showChecked: bool,
    showAllTodos: bool,
    showOnlyActiveFile: bool,
    groupBy: GroupBy,
    sortDirectionGroups: SortDirection,
    sortDirectionItems: SortDirection,
    sortDirectionSubGroups: SortDirection,
    groupByProperty: Option<string>,
    subGroupBy: Option<GroupBy>)

  /** What `calculateAllItems` hands to `parseTodos` besides the vault:
      the tags to look for, the settings that filter items and the time of
      the last render (files unchanged since then are skipped). */
  datatype ParseRequest = ParseRequest(
    tags: seq<string>,
    includeFiles: string,
    showChecked: bool,
    showAllTodos: bool,
    since: int)

  /** `parseTodos` with the vault and metadata cache closed over: the
      changed files' paths, each with all its items. */
  type Parser = ParseRequest -> seq<(string, seq<Item>)>

  /** The parser is asked for every configured tag that is not hidden, or
      for `*` when no tag is configured, with the settings' file filters and
      the given time. */
  function RequestFor(s: Settings, since: int): (q: ParseRequest)
    ensures forall t :: t in q.tags <==>
      (TodoTags(s.todoPageName) == [] && t == "*") || (t in TodoTags(s.todoPageName) && t !in s.hiddenTags)
    ensures q.includeFiles == s.includeFiles && q.showChecked == s.showChecked && q.showAllTodos == s.showAllTodos
    ensures q.since == since
  {
    ParseRequest(ParserTags(s.todoPageName, s.hiddenTags), s.includeFiles, s.showChecked, s.showAllTodos, since)
  }

  /** The top-level call of `groupTodos` made by `groupItems`. */
  function ArgsFor(s: Settings): GroupArgs
  {
    GroupArgs(s.groupBy, s.sortDirectionGroups, s.sortDirectionItems, s.sortDirectionSubGroups,
              s.groupByProperty, s.subGroupBy, None)
  }

  /** The cached items `groupItems` groups: all of them, or only those of
      the active file. */
  function ItemsToGroup(c: FileMap, s: Settings, active: Option<string>): seq<Item>
    requires s.showOnlyActiveFile ==> active.Some?
  {
    if s.showOnlyActiveFile then Filter(Values(c), (x: Item) => x.filePath == active.value)
    else Values(c)
  }

  /** What `groupItems` stores for display: the grouped items, searched
      when the term is not empty. */
  function Displayed(c: FileMap, term: string, s: Settings, active: Option<string>, h: Host): seq<Group>
    requires s.showOnlyActiveFile ==> active.Some?
  {
    var grouped := GroupTodosSpec(ItemsToGroup(c, s, active), ArgsFor(s), h);
    if term != "" then FilterGroups(grouped, term) else grouped
  }

  class TodoListView {
    var lastRerender: int
    var groupedItems: seq<Group>
    var itemsByFile: map<string, seq<Item>>
    /** The insertion order of `itemsByFile`'s keys. */
    var fileOrder: seq<string>
    var searchTerm: string

    /** The cache as an ordered map. */
    function Cache(): FileMap
      reads this
    {
      FileMap(itemsByFile, fileOrder)
    }

    ghost predicate Valid()
      reads this
    {
      Ordered(Cache())
    }

    constructor()
      ensures Valid()
      ensures lastRerender == 0 && groupedItems == [] && Cache() == Empty() && searchTerm == ""
    {
      lastRerender := 0;
      groupedItems := [];
      itemsByFile := map[];
      fileOrder := [];
      searchTerm := "";
    }

    /** `calculateAllItems`: asks the parser for the files changed since
      the last render and replaces each one's entry by its new items. */
    method CalculateAllItems(s: Settings, parse: Parser)
      requires Valid()
      modifies this`itemsByFile, this`fileOrder
      ensures Valid()
      ensures Cache() == SetAll(old(Cache()), parse(RequestFor(s, lastRerender)))
    {
      var updated := parse(RequestFor(s, lastRerender));
      for i := 0 to |updated|
        invariant Cache() == SetAll(old(Cache()), updated[..i])
      {
        var (path, todos) := updated[i];
        SetAllStep(old(Cache()), updated, i);
        var next := Set(Cache(), path, todos);
        itemsByFile, fileOrder := next.entries, next.order;
      }
      assert updated[..|updated|] == updated;
      SetAllOrdered(old(Cache()), updated);
    }

    /** `groupItems`: groups the cached items (only the active file's when
      that setting is on) and searches the groups when there is a term.
      The active file must exist when only it is shown. */
    method GroupItems(s: Settings, active: Option<string>, h: Host)
      requires s.showOnlyActiveFile ==> active.Some?
      modifies this`groupedItems
      ensures groupedItems == Displayed(Cache(), searchTerm, s, active, h)
    {
      var flattened := Values(Cache());
      var filtered := if s.showOnlyActiveFile then Filter(flattened, (x: Item) => x.filePath == active.value)
                      else flattened;
      var grouped := GroupTodos(filtered, ArgsFor(s), h);
      if searchTerm != "" {
        grouped := FilterGroups(grouped, searchTerm);
      }
      groupedItems := grouped;
    }

    /** `deleteFile`: drops the file's entry and regroups. */
    method DeleteFile(path: string, s: Settings, active: Option<string>, h: Host)
      requires Valid()
      requires s.showOnlyActiveFile ==> active.Some?
      modifies this`itemsByFile, this`fileOrder, this`groupedItems
      ensures Valid()
      ensures Cache() == Delete(old(Cache()), path)
      ensures groupedItems == Displayed(Cache(), searchTerm, s, active, h)
    {
      DeleteSpec(Cache(), path);
      itemsByFile := itemsByFile - {path};
      fileOrder := Filter(fileOrder, (q: string) => q != path);
      GroupItems(s, active, h);
    }

    /** `refresh(all)`: a full refresh first empties the cache and forgets
      the last render time, so that every file is parsed again; then the
      changed files are parsed, the items regrouped and the render time set
      to `now`. */
    method Refresh(all: bool, now: int, s: Settings, parse: Parser, active: Option<string>, h: Host)
      requires Valid()
      requires s.showOnlyActiveFile ==> active.Some?
      modifies this`lastRerender, this`itemsByFile, this`fileOrder, this`groupedItems
      ensures Valid()
      ensures Cache() == SetAll(if all then Empty() else old(Cache()),
                                parse(RequestFor(s, if all then 0 else old(lastRerender))))
      ensures groupedItems == Displayed(Cache(), searchTerm, s, active, h)
      ensures lastRerender == now
    {
      if all {
        lastRerender := 0;
        itemsByFile := map[];
        fileOrder := [];
      }
      CalculateAllItems(s, parse);
      GroupItems(s, active, h);
      lastRerender := now;
    }

    /** The `onSearch` handler: stores the term and refreshes. */
    method OnSearch(term: string, now: int, s: Settings, parse: Parser, active: Option<string>, h: Host)
      requires Valid()
      requires s.showOnlyActiveFile ==> active.Some?
      modifies this
      ensures Valid()
      ensures searchTerm == term
      ensures Cache() == SetAll(old(Cache()), parse(RequestFor(s, old(lastRerender))))
      ensures groupedItems == Displayed(Cache(), term, s, active, h)
      ensures lastRerender == now
    {
      searchTerm := term;
      Refresh(false, now, s, parse, active, h);
    }
  }

  // ---------------------------------------------------------------------
  // Properties of what is displayed

  /** Skipping the search for an empty term changes nothing: the filter
      would keep every group as it is. */
  lemma EmptyTermSkipSound(c: FileMap, s: Settings, active: Option<string>, h: Host)
    requires s.showOnlyActiveFile ==> active.Some?
    ensures Displayed(c, "", s, active, h)
         == FilterGroups(GroupTodosSpec(ItemsToGroup(c, s, active), ArgsFor(s), h), "")
  {
    FilterEmptyTerm(GroupTodosSpec(ItemsToGroup(c, s, active), ArgsFor(s), h));
  }

  /** The items grouped are the cached items, restricted to the active
      file when only it is shown. */
  lemma ItemsToGroupMembers(c: FileMap, s: Settings, active: Option<string>, x: Item)
    requires Ordered(c)
    requires s.showOnlyActiveFile ==> active.Some?
    ensures x in ItemsToGroup(c, s, active) <==>
      (exists p :: p in c.entries && x in c.entries[p]) && (s.showOnlyActiveFile ==> x.filePath == active.value)
  {
    ValuesMembers(c, x);
    if s.showOnlyActiveFile {
      FilterMembers(Values(c), (y: Item) => y.filePath == active.value, x);
    }
  }

  /** Without a search term the displayed groups hold every item to group
      exactly once; with one they hold only items whose text matches, or
      items of groups whose name matches. */
  lemma DisplayedItems(c: FileMap, term: string, s: Settings, active: Option<string>, h: Host)
    requires Permutes(h)
    requires s.showOnlyActiveFile ==> active.Some?
    ensures term == "" ==> multiset(FlatTodos(Displayed(c, term, s, active, h))) == multiset(ItemsToGroup(c, s, active))
    ensures term != "" ==>
      forall i :: 0 <= i < |Displayed(c, term, s, active, h)| ==> Justified(Displayed(c, term, s, active, h)[i], term)
  {
    var grouped := GroupTodosSpec(ItemsToGroup(c, s, active), ArgsFor(s), h);
    Partition(ItemsToGroup(c, s, active), ArgsFor(s), h);
    FilterGroupsJustified(grouped, term);
  }

  /** With only the active file shown, every displayed group holds only
      that file's items, whatever the search term. */
  lemma ActiveFileOnly(c: FileMap, term: string, s: Settings, active: Option<string>, h: Host)
    requires Permutes(h)
    requires s.showOnlyActiveFile && active.Some?
    ensures forall i, x ::
      0 <= i < |Displayed(c, term, s, active, h)| && x in Displayed(c, term, s, active, h)[i].todos
      ==> x.filePath == active.value
  {
    var items := ItemsToGroup(c, s, active);
    var grouped := GroupTodosSpec(items, ArgsFor(s), h);
    var shown := Displayed(c, term, s, active, h);
    assert shown == if term != "" then FilterGroups(grouped, term) else grouped;
    forall i, x | 0 <= i < |shown| && x in shown[i].todos
      ensures x.filePath == active.value
    {
      var j := i;
      if term != "" {
        FilterGroupsItems(grouped, term, i, x);
        j :| 0 <= j < |grouped| && x in grouped[j].todos;
      }
      GroupMember(items, ArgsFor(s), h, j, x);
      FilterMembers(Values(c), (y: Item) => y.filePath == active.value, x);
    }
  }

  /** With a search term, every item to group whose text matches is
      displayed. */
  lemma MatchesDisplayed(c: FileMap, term: string, s: Settings, active: Option<string>, h: Host, x: Item)
    requires Permutes(h)
    requires s.showOnlyActiveFile ==> active.Some?
    requires x in ItemsToGroup(c, s, active) && TextMatches(x, term)
    ensures exists i :: 0 <= i < |Displayed(c, term, s, active, h)| && x in Displayed(c, term, s, active, h)[i].todos
  {
    var items := ItemsToGroup(c, s, active);
    var grouped := GroupTodosSpec(items, ArgsFor(s), h);
    var shown := Displayed(c, term, s, active, h);
    assert shown == if term != "" then FilterGroups(grouped, term) else grouped;
    Placement(items, ArgsFor(s), h);
    var j :| 0 <= j < |grouped| && grouped[j].id == ItemKey(x, ArgsFor(s)) && x in grouped[j].todos;
    if term != "" {
      MatchingItemsKept(grouped, term, j, x);
      var i :| 0 <= i < |shown| && x in shown[i].todos;
    } else {
      assert x in shown[j].todos;
    }
  }
}
